=== FILE: README.md ===
# SmartFin screens — a Dafny model

SmartFin is a React Native personal-finance app (Brazilian Portuguese UI). Its
screens hold the app's logic in small handler functions: the transactions list
(type filter, period window, most-recent-first sort, income / expense / balance
totals), the new-transaction form (centavo formatting of the amount, due-day
field, submitted payload, category lookup), the new-goal form (validation,
pt-BR currency text for the target, the save buttons), the goals list (progress
colour bands, remaining days, status chip, icons, category filter), the
category drill-down (usage colour and percentage), the home dashboard's alerts,
the reports screen's figures, the profile screen's state and the placeholder
authentication context.

The model states each of these as pure Dafny functions over immutable
datatypes, with the properties the code promises proved as contracts and
lemmas.

Modelling conventions:

- Money, goal amounts included, is whole centavos (`int`). The screens hold reais as JavaScript numbers.
- A transaction's date is a day number of the proleptic Gregorian calendar (`Calendar.DayNumber`). Goal deadlines and the clock are milliseconds since the epoch.
- "Today" and "now" are parameters. The code reads them from `new Date()`.
- A JavaScript division of two whole numbers is an exact fraction, an infinity or NaN (`JsNumber.Quotient`). Comparisons against 0.8, 0.5 and 0.3 become cross-multiplications.
- `Math.round`, `Math.ceil` and `toFixed` are modelled by their exact integer characterisations.

Modules:

- `NumericText`: digit clean-up, `parseInt` and `toFixed(2)` on centavos.
- `MoneyDisplay`: `formatCurrency` and the transaction colours.
- `Calendar`: day numbers.
- `TransactionQuery`: the transactions list.
- `TransactionScenarios`: worked examples on that list.
- `TransactionForm`: the new-transaction form.
- `GoalForm`: the new-goal form.
- `JsNumber`: exact JavaScript quotients.
- `Palette`: theme colours named by role.
- `Goals`, `CategoryDetails`, `Home`, `Reports`, `Profile`, `Auth`: one module per screen or context.
- `Seqs` and `Wrappers`: generic filter lemmas and `Option`.

## Model

| member | source | states |
|---|---|---|
| TransactionQuery.TypeFilter | SmartFinNew/src/screens/TransactionsScreen.tsx:240-245 | "income" keeps exactly the income transactions, "expense" exactly the expenses; any other filter value keeps the list unchanged |
| TransactionQuery.WindowStart | SmartFinNew/src/screens/TransactionsScreen.tsx:247-265 | the window never starts after today; "week" starts seven days back; an unknown period gives a window of today only |
| TransactionQuery.MonthWindow | SmartFinNew/src/screens/TransactionsScreen.tsx:259-273 | a date lies in the month window iff it is in today's month and year and not after today's day |
| TransactionQuery.YearWindow | SmartFinNew/src/screens/TransactionsScreen.tsx:262-273 | a date lies in the year window iff it is in today's year and not after today |
| TransactionQuery.WindowsNest | SmartFinNew/src/screens/TransactionsScreen.tsx:254-265 | year window ⊇ month window ⊇ today |
| Calendar.DayNumberOrder | SmartFinNew/src/screens/TransactionsScreen.tsx:270-273 | comparing day numbers orders valid dates as the calendar does, and equal numbers mean equal dates, so the `Date` comparisons of the window are faithfully replaced in UTC |
| TransactionQuery.SortPermutes | SmartFinNew/src/screens/TransactionsScreen.tsx:278 | the sort is a permutation of its input (multisets equal) |
| TransactionQuery.SortStable | SmartFinNew/src/screens/TransactionsScreen.tsx:278 | transactions of the same day keep their relative input order (the sort is stable) |
| TransactionQuery.FilterTransactions | SmartFinNew/src/screens/TransactionsScreen.tsx:237-279 | the list is sorted most recent first and holds exactly the input transactions that pass the type filter and fall between window start and today inclusive |
| TransactionQuery.FilterTransactionsIsSortedSelection | SmartFinNew/src/screens/TransactionsScreen.tsx:237-279 | the two successive filters equal one filter by the conjunction of both tests; the list is the sorted selection |
| TransactionQuery.FilterTransactionsMultiplicity | SmartFinNew/src/screens/TransactionsScreen.tsx:237-279 | each transaction appears as many times as in the input when it passes both tests, and never otherwise |
| TransactionQuery.IncomeTotal | SmartFinNew/src/screens/TransactionsScreen.tsx:283-284 | a list with no income transaction totals zero income |
| TransactionQuery.ExpenseTotal | SmartFinNew/src/screens/TransactionsScreen.tsx:285-286 | the expense total adds absolute amounts, so it is never negative, and is zero without expenses |
| TransactionQuery.BalanceIsIncomeMinusExpense | SmartFinNew/src/screens/TransactionsScreen.tsx:281-292 | the balance fold equals income total minus expense total |
| TransactionQuery.SumSort | SmartFinNew/src/screens/TransactionsScreen.tsx:278-292 | sorting never changes a fold total |
| TransactionQuery.CalculateTotalConsistent | SmartFinNew/src/screens/TransactionsScreen.tsx:281-292 | the three figures of the summary card agree: balance = income − expense, expense ≥ 0 |
| TransactionQuery.TotalsFollowTypeFilter | SmartFinNew/src/screens/TransactionsScreen.tsx:281-292 | under the "income" filter the expense total is zero, under "expense" the income total is zero |
| TransactionQuery.TotalsIgnoreOrder | SmartFinNew/src/screens/TransactionsScreen.tsx:281-292 | the totals over the displayed list equal the totals over the unsorted selection |
| TransactionQuery.ComputeTotals | SmartFinNew/src/screens/TransactionsScreen.tsx:281-292 | a single loop over the list yields the same three totals as the three folds |
| TransactionQuery.Render | SmartFinNew/src/screens/TransactionsScreen.tsx:401-434 | the empty-state message shows iff the list is empty; the balance is green iff income ≥ expenses; the three texts carry the magnitudes of the totals |
| TransactionQuery.RenderTexts | SmartFinNew/src/screens/TransactionsScreen.tsx:405-424 | the three texts are exactly the currency texts of the income total, the expense total and their difference (whose sign only picks the colour) |
| TransactionQuery.EmptyListScreen | SmartFinNew/src/screens/TransactionsScreen.tsx:401-433 | an empty list shows "Nenhuma transação encontrada" and "R$ 0.00" three times, balance in the income colour |
| TransactionScenarios.MonthScenario | SmartFinNew/src/screens/TransactionsScreen.tsx:32-143 | on 20 March 2024 the month view of fixture entries 1, 2 and 12 lists entries 1 and 2, newest first |
| TransactionScenarios.MonthScenarioTotals | SmartFinNew/src/screens/TransactionsScreen.tsx:32-143 | that month view totals 5000.00 income, 456.75 expenses and 4543.25 balance |
| TransactionScenarios.WeekScenario | SmartFinNew/src/screens/TransactionsScreen.tsx:32-143 | the week view lists only the market expense, a −456.75 balance |
| NumericText.Unsigned2 | SmartFinNew/src/screens/TransactionsScreen.tsx:224-226 | `toFixed(2)` of non-negative centavos: digits, exactly one point with two decimals after it, no leading zero in the whole part, and the digits read back as the amount |
| NumericText.Unsigned2Unique | SmartFinNew/src/screens/TransactionsScreen.tsx:224-226 | any text of that shape whose digits read as the amount is the `toFixed(2)` text, so the shape and value pin the text down |
| NumericText.CanonicalDigitsUnique | SmartFinNew/src/screens/TransactionsScreen.tsx:224-226 | a digit string without a leading zero is the decimal numeral of its value |
| NumericText.Fixed2 | SmartFinNew/src/screens/TransactionsScreen.tsx:224-226 | `toFixed(2)` of centavos: two decimals after a point, a minus sign iff negative followed by the magnitude's unsigned text, and the digits read back as the magnitude |
| MoneyDisplay.FormatCurrency | SmartFinNew/src/screens/TransactionsScreen.tsx:224-226 | "R$ " then a decimal text whose digits read back as the absolute amount |
| MoneyDisplay.FormatCurrencyShape | SmartFinNew/src/screens/TransactionsScreen.tsx:224-226 | after "R$ " comes a whole part without leading zeros, one point and exactly two decimals |
| MoneyDisplay.FormatCurrencyUnique | SmartFinNew/src/screens/TransactionsScreen.tsx:224-226 | the only text with that prefix and shape whose digits read as the absolute amount is the displayed one |
| MoneyDisplay.FormatCurrencyIgnoresSign | SmartFinNew/src/screens/HomeScreen.tsx:99-101 | an amount and its negation are displayed identically |
| MoneyDisplay.TransactionColor | SmartFinNew/src/screens/HomeScreen.tsx:103-105 | income colour iff the amount is ≥ 0 (zero included), expense colour iff negative |
| TransactionForm.FormatAmount | SmartFinNew/src/screens/TransactionScreen.tsx:84-88 | "NaN" iff the typed text has no digit; otherwise exactly the `toFixed(2)` text of the typed digits' value in centavos: no leading zero, one point, two decimals |
| TransactionForm.FormatAmountIdempotent | SmartFinNew/src/screens/TransactionScreen.tsx:84-88 | re-formatting the stored amount leaves it unchanged |
| TransactionForm.FormatAmountTypeDigit | SmartFinNew/src/screens/TransactionScreen.tsx:84-88 | typing one more digit after the stored amount multiplies its value by ten and adds the digit |
| TransactionForm.DueDayChange | SmartFinNew/src/screens/TransactionScreen.tsx:300-305 | the new digits are stored iff they are non-empty and worth at most 31; otherwise the field keeps its value |
| TransactionForm.DueDayChangeInvariant | SmartFinNew/src/screens/TransactionScreen.tsx:300-305 | the field always holds "" or digits worth ≤ 31, and once non-empty it can never be emptied |
| TransactionForm.DueDayExamples | SmartFinNew/src/screens/TransactionScreen.tsx:300-305 | "0" and "07" are stored as typed, "32" and "" are refused |
| TransactionForm.SubmitPayload | SmartFinNew/src/screens/TransactionScreen.tsx:69-82 | the recurrence part is present iff the transaction is fixed; its due day is absent (NaN) iff the field is empty, and otherwise it is the field's digits' value, at most 31; other fields are passed through |
| TransactionForm.FindCategory | SmartFinNew/src/screens/TransactionScreen.tsx:90 | no result iff no entry has the id; otherwise the first entry with it |
| TransactionForm.FindCategoryEntry | SmartFinNew/src/screens/TransactionScreen.tsx:27-35 | with unique ids, looking up an entry's id returns that entry |
| TransactionForm.CategoriesUnique | SmartFinNew/src/screens/TransactionScreen.tsx:27-35 | the seven picker entries have distinct ids |
| TransactionForm.CategoryButton | SmartFinNew/src/screens/TransactionScreen.tsx:240-247 | the placeholder label iff no entry matches the selection, and then the "folder-outline" icon with it; otherwise the matching entry's icon and name |
| GoalForm.TrimEmptyIffBlank | SmartFinNew/src/screens/AddGoalScreen.tsx:67-69 | `trim()` empties the title iff it is all whitespace |
| GoalForm.ReplaceFirstAt | SmartFinNew/src/screens/AddGoalScreen.tsx:71 | `replace(',', '.')` changes only the first comma |
| GoalForm.ParseFloat | SmartFinNew/src/screens/AddGoalScreen.tsx:71 | `parseFloat` gives NaN iff the text starts with neither a digit nor a point followed by a digit |
| GoalForm.ParseFloatPointed | SmartFinNew/src/screens/AddGoalScreen.tsx:71 | "whole.frac" parses as the decimal with those digits and scale `|frac|` |
| GoalForm.GroupThousandsDigits | SmartFinNew/src/screens/AddGoalScreen.tsx:99-102 | removing the pt-BR grouping points gives the digits back |
| GoalForm.BrlTextRoundTrip | SmartFinNew/src/screens/AddGoalScreen.tsx:71-102 | the currency text the amount field stores reads back, through validation's clean-up and `parseFloat`, as exactly the centavos typed |
| GoalForm.NaNTextReadsAsNaN | SmartFinNew/src/screens/AddGoalScreen.tsx:71-102 | the text stored for digit-less input ("R$ NaN") reads back as NaN |
| GoalForm.ValidateForm | SmartFinNew/src/screens/AddGoalScreen.tsx:64-86 | valid iff there is no error; one message per field exactly when that field fails its check |
| GoalForm.HandleAmountChange | SmartFinNew/src/screens/AddGoalScreen.tsx:95-106 | only the amount changes; it becomes the currency text of the typed digits as centavos, or NaN's text when there is no digit |
| GoalForm.AmountRefusedAfterChange | SmartFinNew/src/screens/AddGoalScreen.tsx:71-106 | after an amount edit, validation refuses the amount iff the typed text has no digit or its digits are worth zero |
| GoalForm.ValidationIsPerField | SmartFinNew/src/screens/AddGoalScreen.tsx:64-86 | each field's verdict depends on that field alone |
| GoalForm.InitialFormErrors | SmartFinNew/src/screens/AddGoalScreen.tsx:53-86 | the freshly opened form fails on title, amount and category, and on the deadline once the clock has moved on |
| GoalForm.AsWrittenLocksAfterFailure | SmartFinNew/src/screens/AddGoalScreen.tsx:190-195 | with the buttons as written, once validation has failed no sequence of edits and presses ever saves, and the errors never change |
| GoalForm.AsWrittenCounterexample | SmartFinNew/src/screens/AddGoalScreen.tsx:346-352 | press save, fill every field correctly, press again: the form is valid yet not saved |
| GoalForm.SaveAfterCorrection | SmartFinNew/src/screens/AddGoalScreen.tsx:88-93 | with presses that always validate, pressing save on a valid form saves it, whatever came before |
| GoalForm.SavedStaysSaved | SmartFinNew/src/screens/AddGoalScreen.tsx:88-93 | after saving (navigating back) no further action changes the screen |
| JsNumber.Divide | SmartFinNew/src/screens/CategoryDetailsScreen.tsx:31 | `n / d`: a fraction equal to n/d iff d ≠ 0, +Infinity, −Infinity or NaN by the sign of n otherwise |
| JsNumber.Round | SmartFinNew/src/screens/CategoryDetailsScreen.tsx:52 | `Math.round`: the integer within half of the value, halves rounded up |
| JsNumber.CeilDivUnique | SmartFinNew/src/screens/GoalsScreen.tsx:94 | `Math.ceil(n/d)` is the unique c with (c−1)·d < n ≤ c·d |
| Goals.ProgressTone | SmartFinNew/src/screens/GoalsScreen.tsx:83-89 | the colour bands of current/target at 0.8, 0.5 and 0.3; a zero target gives success iff something is saved (∞) and error otherwise (NaN or −∞) |
| Goals.ProgressToneMonotone | SmartFinNew/src/screens/GoalsScreen.tsx:83-89 | saving more towards the same target never moves a goal to a worse band |
| Goals.ProgressToneSignSymmetric | SmartFinNew/src/screens/GoalsScreen.tsx:83-89 | negating both amounts leaves the band unchanged |
| Goals.RemainingDays | SmartFinNew/src/screens/GoalsScreen.tsx:91-96 | the whole days to the deadline, rounded up |
| Goals.RemainingDaysSign | SmartFinNew/src/screens/GoalsScreen.tsx:91-96 | the count is positive iff the deadline is ahead, and negative only once a full day has passed |
| Goals.StatusChip | SmartFinNew/src/screens/GoalsScreen.tsx:98-106 | for a positive target: "Concluído" iff reached, else "Urgente" iff under 30 days left, else "Quase lá!" iff 80% saved, else "Em andamento" |
| Goals.ReachedGoalNeverUrgent | SmartFinNew/src/screens/GoalsScreen.tsx:98-103 | a reached goal is "Concluído" even past its deadline |
| Goals.EmptyZeroGoalCanBeUrgent | SmartFinNew/src/screens/GoalsScreen.tsx:98-103 | a zero-target goal with nothing saved is not complete (NaN) and shows "Urgente" when due |
| Goals.GoalIcon | SmartFinNew/src/screens/GoalsScreen.tsx:66-81 | "star" iff the category is none of travel, savings, electronics, car, home |
| Goals.GoalIconAgreesWithMenu | SmartFinNew/src/screens/GoalsScreen.tsx:66-81 | the list's icon equals the new-goal menu's for every category but education, which the list draws as a star |
| Goals.FilterGoals | SmartFinNew/src/screens/GoalsScreen.tsx:184-185 | "all" keeps the list; otherwise exactly the goals whose category equals the filter |
| Goals.FilterGoalsMultiplicity | SmartFinNew/src/screens/GoalsScreen.tsx:184-185 | a kept goal occurs as often as in the input, a dropped one never |
| Goals.StatusMenuEmptiesList | SmartFinNew/src/screens/GoalsScreen.tsx:123-142 | the menu's "active" and "completed" choices empty the sample list, since they are compared with the category |
| CategoryDetails.UsageTone | SmartFinNew/src/screens/CategoryDetailsScreen.tsx:43-49 | error colour iff more than 80% of a positive limit is spent; with a zero limit, iff anything is spent |
| CategoryDetails.UsageToneMonotone | SmartFinNew/src/screens/CategoryDetailsScreen.tsx:43-49 | spending more against the same limit never turns the warning off |
| CategoryDetails.PercentUsed | SmartFinNew/src/screens/CategoryDetailsScreen.tsx:52 | the shown percentage is 100·spent/limit rounded half up |
| CategoryDetails.PercentAgreesWithTone | SmartFinNew/src/screens/CategoryDetailsScreen.tsx:43-52 | a shown 81% or more comes with the error colour, 79% or less with the success colour |
| CategoryDetails.Rows | SmartFinNew/src/screens/CategoryDetailsScreen.tsx:57-75 | one row per passed transaction, in order, with its fields, every row drawn as an expense |
| CategoryDetails.RowsIgnoreKind | SmartFinNew/src/screens/CategoryDetailsScreen.tsx:57-75 | the rows do not depend on the transactions' types |
| Home.AlertIcon | SmartFinNew/src/screens/HomeScreen.tsx:107-114 | warning and success have their own icons; any other type gets "information" |
| Home.AlertColor | SmartFinNew/src/screens/HomeScreen.tsx:116-123 | warning #FFA726, success #66BB6A, info #42A5F5, and the fallback grey iff the type is none of these |
| Home.AlertColorsMatchInsightColors | SmartFinNew/src/screens/HomeScreen.tsx:116-123 | alerts and report insights share the three known colours but not the fallback grey |
| Home.AlertPress | SmartFinNew/src/screens/HomeScreen.tsx:553-574 | warning opens the food category's details with its limit, spending and food transactions; success opens goals with completed goals highlighted; info opens reports on the month period; other types do nothing |
| Home.DrillDownPassesFoodTransactions | SmartFinNew/src/screens/HomeScreen.tsx:556-561 | the drill-down receives exactly the recent food transactions, each as often as it occurs |
| Home.WarningDrillDown | SmartFinNew/src/screens/HomeScreen.tsx:553-561 | with the dashboard's data the details screen shows the error colour, 85% used and the single food transaction |
| Reports.TotalExpensesAppend | SmartFinNew/src/screens/ReportsScreen.tsx:93 | the total over two joined lists is the sum of their totals |
| Reports.TotalExpensesRotate | SmartFinNew/src/screens/ReportsScreen.tsx:93 | moving the first category to the end leaves the total unchanged |
| Reports.TotalExpensesPermutation | SmartFinNew/src/screens/ReportsScreen.tsx:93 | any two lists holding the same entries in any order have the same total |
| Reports.TotalExpensesBounds | SmartFinNew/src/screens/ReportsScreen.tsx:93 | with non-negative amounts the total is at least each amount |
| Reports.SampleExpensesMatchSummary | SmartFinNew/src/screens/ReportsScreen.tsx:44-58 | the sample categories add up to the summary's expense figure |
| Reports.ToFixed0 | SmartFinNew/src/screens/ReportsScreen.tsx:201 | `toFixed(0)`: a minus sign iff negative, then the digits without leading zeros of the nearest integer (halves away from zero); "Infinity", "-Infinity" and "NaN" for the infinities and NaN |
| Reports.SavingsPercentText | SmartFinNew/src/screens/ReportsScreen.tsx:201 | ends in "%"; for a non-zero goal, a minus sign iff savings and goal differ in sign, then the digits without leading zeros of 100·|savings|/|goal| rounded; for a zero goal "Infinity%", "-Infinity%" or "NaN%" |
| Reports.SampleSavingsText | SmartFinNew/src/screens/ReportsScreen.tsx:94 | the sample savings show as "80%" |
| Reports.GetTrendIcon | SmartFinNew/src/screens/ReportsScreen.tsx:104-113 | up and down get their arrows and colours; any other value the neutral icon in grey |
| Reports.InsightColor | SmartFinNew/src/screens/ReportsScreen.tsx:115-126 | warning #FFA726, success #66BB6A, info #42A5F5, and the neutral grey iff the type is none of these |
| Profile.Open | SmartFinNew/src/screens/ProfileScreen.tsx:40-44 | the edit buffers start as the record's name and email, with the dialog closed |
| Profile.SaveProfile | SmartFinNew/src/screens/ProfileScreen.tsx:47-55 | name and email take the buffers' values, every other field is unchanged, the dialog and edit mode close |
| Profile.ToggleNotifications | SmartFinNew/src/screens/ProfileScreen.tsx:57-62 | flips the notifications flag and nothing else |
| Profile.ToggleDarkMode | SmartFinNew/src/screens/ProfileScreen.tsx:64-69 | flips the dark-mode flag and nothing else |
| Profile.TogglesAreInvolutions | SmartFinNew/src/screens/ProfileScreen.tsx:57-69 | each switch undoes itself, and the two commute |
| Profile.SaveIdempotent | SmartFinNew/src/screens/ProfileScreen.tsx:47-55 | saving twice is saving once; saving right after opening changes nothing |
| Profile.DismissKeepsDraft | SmartFinNew/src/screens/ProfileScreen.tsx:391-417 | a draft typed before dismissing the dialog is still in the buffer when it reopens, and the record is unchanged |
| Auth.SignIn | SmartFinNew/src/contexts/AuthContext.tsx:15-19 | sign-in always succeeds with the given email, a fixed id and name, whatever the password |
| Auth.SignUp | SmartFinNew/src/contexts/AuthContext.tsx:21-25 | the user becomes the given name and email, with the fixed id |
| Auth.SignOut | SmartFinNew/src/contexts/AuthContext.tsx:27-29 | no user afterwards, from any state |
| Auth.LastEventDecides | SmartFinNew/src/contexts/AuthContext.tsx:13-29 | after any non-empty history the session is what the last event gives from the initial state |
| Auth.SessionExamples | SmartFinNew/src/contexts/AuthContext.tsx:15-29 | passwords are ignored; sign-out after sign-in is the initial state; sign-in overrides a signed-up name |

## Left out

- Rendering is not modelled: JSX layout, styles, charts, theme objects, menus' visibility flags, modals and navigation stacks. Navigation is kept only as the destination and the parameters an alert press chooses (`Home.Destination`), except the one named next.
- Home.AlertPress: the `goals: mockData.goals` parameter of the success branch is dropped, because the navigator's route type for the goals screen declares only `highlightCompleted` and the goals screen never reads route parameters.
- FixedTransactionsScreen and LoginScreen are outside the modelled screens.
- `updateMockDates` and the fixtures' date strings are not modelled. Transactions carry day numbers, and `new Date('YYYY-MM-DD')` parsing, time zones and invalid calendar dates are left out.
- Floating point is not modelled. Every quotient is exact, so the following are out:
  - binary rounding of values such as 0.285 × 100;
  - `toFixed` switching to exponent form at 10^21;
  - `parseFloat` overflow, underflow and exponent syntax;
  - precision loss of `parseInt` on more than 15 digits;
  - JavaScript's −0.
- `toLocaleString('pt-BR', currency BRL)` is modelled for whole centavo amounts and NaN only. That is the only input the amount field gives it.
- `utils/formatters` (the `formatCurrency` the category drill-down imports) is not part of this model. The drill-down's rows keep the raw amount.
- `constants/colors` is not part of this model. Its colours are named by role (`Palette.Tone`). The colours defined in the screens themselves are kept as literals.
- `console.log` of the new-transaction payload is not modelled. The payload it prints is (`TransactionForm.SubmitPayload`).
- The camera, image picker and receipt OCR are left out. The receipt image is an optional URI.
- The profile's logout confirmation alert and the settings menu are left out, as is the goal details modal. The goals screen never reads its route parameters, so the highlight an alert press passes has no effect there; the model keeps it only as part of the destination.
- The `id` fields are carried but used only as list keys.
- Mock data is modelled only where a property uses it: transactions 1, 2 and 12, the dashboard's recent transactions, the goals list's sample goals and the reports screen's sample categories.
- The transactions' totals are computed over the listed (type- and period-filtered) transactions, as the code does. They are not computed over all transactions of the period.
- TransactionForm.SubmitPayload: requires the due-day field to hold "" or digits worth at most 31. This is what the field's change handler guarantees (`TransactionForm.DueDayChangeInvariant`). It is not an arbitrary string.
- Goals.ProgressToneSignSymmetric: requires a non-zero target. With a zero target JavaScript's signed zero would decide the infinity's sign, and −0 is not modelled.
- CategoryDetails.PercentUsed: exact arithmetic. A float product that lands just below a half (e.g. 0.285 × 100) rounds down in the app and up here.
- Reports.ToFixed0: exact arithmetic. It has no exponent form for values of 10^21 and more.
- GoalForm.ParseFloat: defined only on text of digits, commas and points, which is all validation passes it after its clean-up.

## Findings

| source | as written | input that shows it | evidently intended | confidence | as-written member | corrected member |
|---|---|---|---|---|---|---|
| SmartFinNew/src/screens/AddGoalScreen.tsx:190-195 | both save buttons are disabled while `errors` is non-empty, and `errors` is recomputed only by a press (lines 88-93, 194 and 351), so after one failed validation no press can ever run again | press save on the empty form, type a title, the amount "100", pick "travel" and a future deadline, press save: the button stays disabled and the goal is never saved | every press re-validates the current form and saves it when valid (or edits clear the stored errors) | high; derived from the code, not executed | GoalForm.AsWrittenCounterexample | GoalForm.SaveAfterCorrection |

=== FILE: auth.dfy ===
/** The signed-in user: a placeholder authentication that accepts any credentials. */
module Auth {
  import opened Wrappers

  datatype User = User(id: int, name: string, email: string)

  /** The context's state: the user, or none before sign-in and after sign-out. */
  type Session = Option<User>

  const Initial: Session := None

  /** `signIn`: always succeeds with a fixed id and name; the password is not looked at. */
  function SignIn(s: Session, email: string, password: string): (r: Session)
    ensures r.Some? && r.value.email == email
    ensures r.value.name == "Test User" && r.value.id == 1
  {
    Some(User(1, "Test User", email))
  }

  /** `signUp`: the user becomes the given name and email, with the same fixed id. */
  function SignUp(s: Session, name: string, email: string, password: string): (r: Session)
    ensures r.Some? && r.value.name == name && r.value.email == email
    ensures r.value.id == 1
  {
    Some(User(1, name, email))
  }

  /** `signOut`: no user, from any state. */
  function SignOut(s: Session): (r: Session)
    ensures r.None?
  {
    None
  }

  datatype Event =
    | SignedIn(email: string, password: string)
    | SignedUp(name: string, email: string, password: string)
    | SignedOut

  function Apply(s: Session, e: Event): Session {
    match e
    case SignedIn(email, password) => SignIn(s, email, password)
    case SignedUp(name, email, password) => SignUp(s, name, email, password)
    case SignedOut => SignOut(s)
  }

  function Replay(s: Session, events: seq<Event>): Session
    decreases |events|
  {
    if events == [] then s else Replay(Apply(s, events[0]), events[1..])
  }

  /** No transition reads the state it replaces: after any history the session is
      whatever the last event alone makes of it, and with no events it is the start. */
  lemma {:induction false} LastEventDecides(s: Session, events: seq<Event>)
    ensures events == [] ==> Replay(s, events) == s
    ensures events != [] ==> Replay(s, events) == Apply(Initial, events[|events| - 1])
    decreases |events|
  {
    if |events| > 1 {
      LastEventDecides(Apply(s, events[0]), events[1..]);
      assert events[1..][|events| - 2] == events[|events| - 1];
    } else if |events| == 1 {
      assert events[1..] == [];
    }
  }

  /** Signing in with two passwords gives the same session; signing out after signing in
      leaves no user; a new sign-in replaces a signed-up user's name. */
  lemma {:induction false} SessionExamples(s: Session, email: string, p1: string, p2: string, name: string)
    ensures SignIn(s, email, p1) == SignIn(Initial, email, p2)
    ensures SignOut(SignIn(s, email, p1)) == Initial
    ensures SignIn(SignUp(s, name, email, p1), email, p1).value.name == "Test User"
  {
  }
}

=== FILE: calendar.dfy ===
/** Calendar days of the proleptic Gregorian calendar and their day numbers.
    A transaction's `date` is held as a day number; `today` is a civil date whose
    month and year fix the month and year windows. */
module Calendar {

  datatype Date = Date(year: int, month: int, day: int)

  predicate IsLeapYear(y: int) {
    y % 4 == 0 && (y % 100 != 0 || y % 400 == 0)
  }

  function YearLength(y: int): int {
    if IsLeapYear(y) then 366 else 365
  }

  function DaysInMonth(y: int, m: int): (n: int)
    requires 1 <= m <= 12
    ensures 28 <= n <= 31
  {
    if m == 2 then (if IsLeapYear(y) then 29 else 28)
    else if m == 4 || m == 6 || m == 9 || m == 11 then 30
    else 31
  }

  predicate Valid(d: Date) {
    1 <= d.month <= 12 && 1 <= d.day <= DaysInMonth(d.year, d.month)
  }

  /** Days from 1 January of year 1 to 1 January of year `y`. */
  function DaysBeforeYear(y: int): int {
    365 * (y - 1) + (y - 1) / 4 - (y - 1) / 100 + (y - 1) / 400
  }

  /** Days from 1 January to the first of month `m` of year `y`. */
  function DaysBeforeMonth(y: int, m: int): int
    requires 1 <= m <= 12
  {
    [0, 31, 59, 90, 120, 151, 181, 212, 243, 273, 304, 334][m - 1]
    + (if m > 2 && IsLeapYear(y) then 1 else 0)
  }

  /** The day number of a valid date: 1 January of year 1 is day 0. */
  function DayNumber(d: Date): int
    requires Valid(d)
  {
    DaysBeforeYear(d.year) + DaysBeforeMonth(d.year, d.month) + d.day - 1
  }

  /** Strictly earlier in calendar (year, month, day) order. */
  predicate Before(a: Date, b: Date) {
    a.year < b.year
    || (a.year == b.year && a.month < b.month)
    || (a.year == b.year && a.month == b.month && a.day < b.day)
  }

  // Arithmetic facts about the leap-day counts.

  lemma {:induction false} DivStep4(y: int)
    ensures y / 4 - (y - 1) / 4 == if y % 4 == 0 then 1 else 0
  {
  }

  lemma {:induction false} DivStep100(y: int)
    ensures y / 100 - (y - 1) / 100 == if y % 100 == 0 then 1 else 0
  {
  }

  lemma {:induction false} DivStep400(y: int)
    ensures y / 400 - (y - 1) / 400 == if y % 400 == 0 then 1 else 0
  {
  }

  /** The closed-form year count advances by exactly the length of each year. */
  lemma {:induction false} YearStep(y: int)
    ensures DaysBeforeYear(y + 1) == DaysBeforeYear(y) + YearLength(y)
  {
    DivStep4(y);
    DivStep100(y);
    DivStep400(y);
  }

  /** The month table agrees with the month lengths: each month starts where the last ended. */
  lemma {:induction false} MonthStep(y: int, m: int)
    requires 1 <= m < 12
    ensures DaysBeforeMonth(y, m + 1) == DaysBeforeMonth(y, m) + DaysInMonth(y, m)
  {
  }

  /** December ends exactly where the year does. */
  lemma {:induction false} LastMonthEndsYear(y: int)
    ensures DaysBeforeMonth(y, 12) + DaysInMonth(y, 12) == YearLength(y)
  {
  }

  lemma {:induction false} MonthsIncrease(y: int, m1: int, m2: int)
    requires 1 <= m1 < m2 <= 12
    ensures DaysBeforeMonth(y, m1) + DaysInMonth(y, m1) <= DaysBeforeMonth(y, m2)
    decreases m2 - m1
  {
    MonthStep(y, m1);
    if m1 + 1 < m2 {
      MonthsIncrease(y, m1 + 1, m2);
    }
  }

  lemma {:induction false} YearsIncrease(y1: int, y2: int)
    requires y1 < y2
    ensures DaysBeforeYear(y1) + YearLength(y1) <= DaysBeforeYear(y2)
    decreases y2 - y1
  {
    YearStep(y1);
    if y1 + 1 < y2 {
      YearsIncrease(y1 + 1, y2);
    }
  }

  /** Every valid date of year `y` falls inside that year's block of day numbers. */
  lemma {:induction false} DayNumberInYear(d: Date)
    requires Valid(d)
    ensures DaysBeforeYear(d.year) <= DayNumber(d) < DaysBeforeYear(d.year) + YearLength(d.year)
  {
    if d.month < 12 {
      MonthsIncrease(d.year, d.month, 12);
    }
    LastMonthEndsYear(d.year);
  }

  lemma {:induction false} EarlierHasSmallerNumber(a: Date, b: Date)
    requires Valid(a) && Valid(b) && Before(a, b)
    ensures DayNumber(a) < DayNumber(b)
  {
    if a.year < b.year {
      DayNumberInYear(a);
      DayNumberInYear(b);
      YearsIncrease(a.year, b.year);
    } else if a.month < b.month {
      MonthsIncrease(a.year, a.month, b.month);
    }
  }

  /** Day numbers order valid dates exactly as the calendar does, and are one-to-one. */
  lemma {:induction false} DayNumberOrder(a: Date, b: Date)
    requires Valid(a) && Valid(b)
    ensures Before(a, b) <==> DayNumber(a) < DayNumber(b)
    ensures a == b <==> DayNumber(a) == DayNumber(b)
  {
    if Before(a, b) {
      EarlierHasSmallerNumber(a, b);
    } else if Before(b, a) {
      EarlierHasSmallerNumber(b, a);
    }
  }
}

=== FILE: category_details.dfy ===
/** The category drill-down: how much of the monthly limit is used, the colour that
    flags overspending, the rounded percentage, and the list of passed transactions. */
module CategoryDetails {
  import opened Wrappers
  import opened JsNumber
  import opened Palette
  import TransactionQuery

  /** A passed transaction; `kind` is absent when the caller's records carry no type. */
  datatype Entry = Entry(
    description: string,
    amount: int,
    date: string,
    category: string,
    kind: Option<TransactionQuery.Kind>)

  /** The route's parameters; `limit` and `spent` are centavos. */
  datatype Params = Params(category: string, limit: int, spent: int, transactions: seq<Entry>)

  /** The colour of the spent amount and of the progress bar: the error colour once
      `spent / limit` is strictly above 0.8, the success colour otherwise. */
  function UsageTone(spent: int, limit: int): (t: Tone)
    ensures t == Error || t == Success
    ensures limit > 0 ==> (t == Error <==> 5 * spent > 4 * limit)
    ensures limit == 0 ==> (t == Error <==> spent > 0)
  {
    if Exceeds(Divide(spent, limit), 4, 5) then Error else Success
  }

  /** Spending more against the same limit never turns the warning off. */
  lemma {:induction false} UsageToneMonotone(spent1: int, spent2: int, limit: int)
    requires limit >= 0 && spent1 <= spent2
    ensures UsageTone(spent1, limit) == Error ==> UsageTone(spent2, limit) == Error
  {
  }

  /** `Math.round(percentage * 100)`: the used share as a whole percent, halves up. */
  function PercentUsed(spent: int, limit: int): (p: Quotient)
    ensures limit > 0 ==>
      p.Fraction? && p.den == 1 && 200 * spent - limit < 2 * p.num * limit <= 200 * spent + limit
    ensures limit == 0 ==> p == Divide(spent, limit)
  {
    var q := Times(Divide(spent, limit), 100);
    assert limit > 0 ==> q.den == limit && q.num == spent * 100;
    Round(q)
  }

  /** The percentage and the colour tell the same story except at a shown 80%, which
      may be just above or just below the threshold. */
  lemma {:induction false} PercentAgreesWithTone(spent: int, limit: int)
    requires limit > 0
    ensures PercentUsed(spent, limit).num >= 81 ==> UsageTone(spent, limit) == Error
    ensures PercentUsed(spent, limit).num <= 79 ==> UsageTone(spent, limit) == Success
  {
    var k := PercentUsed(spent, limit).num;
    if k >= 81 {
      JsNumber.MulLe(81, k, 2 * limit);
      assert 200 * spent > 160 * limit;
    } else if k <= 79 {
      JsNumber.MulLe(k, 79, 2 * limit);
      assert 200 * spent < 160 * limit;
    }
  }

  datatype Row = Row(title: string, date: string, amount: int, icon: string, tone: Tone)

  /** One row per passed transaction, in the given order, all drawn as expenses
      (the "cash-minus" icon and the error colour) whatever their type. */
  function Rows(ts: seq<Entry>): (rows: seq<Row>)
    ensures |rows| == |ts|
    ensures forall i | 0 <= i < |ts| ::
      rows[i].title == ts[i].description && rows[i].date == ts[i].date && rows[i].amount == ts[i].amount
    ensures forall i | 0 <= i < |rows| :: rows[i].icon == "cash-minus" && rows[i].tone == Error
  {
    if ts == [] then []
    else [Row(ts[0].description, ts[0].date, ts[0].amount, "cash-minus", Error)] + Rows(ts[1..])
  }

  /** The rows do not depend on the transactions' types. */
  lemma {:induction false} RowsIgnoreKind(ts: seq<Entry>, us: seq<Entry>)
    requires |ts| == |us|
    requires forall i | 0 <= i < |ts| :: ts[i].(kind := us[i].kind) == us[i]
    ensures Rows(ts) == Rows(us)
  {
    var a, b := Rows(ts), Rows(us);
    assert forall i | 0 <= i < |a| :: a[i] == b[i] by {
      forall i | 0 <= i < |a| ensures a[i] == b[i] {
        assert ts[i].description == us[i].description;
      }
    }
  }
}

=== FILE: goal_form.dfy ===
/** The new-goal form: validation of its four fields, the target amount's
    pt-BR currency text, and when its save buttons let a press through. */
module GoalForm {
  import opened Wrappers
  import opened NumericText

  // ---------------------------------------------------------------------------
  // Blank titles: `!title.trim()`
  // ---------------------------------------------------------------------------

  /** The characters ECMAScript's `String.prototype.trim` removes: WhiteSpace and LineTerminator. */
  predicate IsJsWhitespace(c: char) {
    c == '\t' || c == '\n' || c == '\U{B}' || c == '\U{C}' || c == '\r' || c == ' '
    || c == '\U{A0}' || c == '\U{1680}' || ('\U{2000}' <= c <= '\U{200A}')
    || c == '\U{2028}' || c == '\U{2029}' || c == '\U{202F}' || c == '\U{205F}'
    || c == '\U{3000}' || c == '\U{FEFF}'
  }

  predicate AllWhitespace(s: string) {
    forall i | 0 <= i < |s| :: IsJsWhitespace(s[i])
  }

  /** Drops leading whitespace: a suffix of `s` that is empty or starts with a non-blank. */
  function TrimStart(s: string): (r: string)
    ensures |r| <= |s| && r == s[|s| - |r|..]
    ensures AllWhitespace(s[..|s| - |r|])
    ensures r == [] || !IsJsWhitespace(r[0])
  {
    if s == [] || !IsJsWhitespace(s[0]) then s
    else
      var r := TrimStart(s[1..]);
      assert s[..|s| - |r|] == [s[0]] + s[1..][..|s[1..]| - |r|];
      r
  }

  /** Drops trailing whitespace: a prefix of `s` that is empty or ends with a non-blank. */
  function TrimEnd(s: string): (r: string)
    ensures |r| <= |s| && r == s[..|r|]
    ensures AllWhitespace(s[|r|..])
    ensures r == [] || !IsJsWhitespace(r[|r| - 1])
  {
    if s == [] || !IsJsWhitespace(s[|s| - 1]) then s
    else
      var r := TrimEnd(s[..|s| - 1]);
      assert s[|r|..] == s[..|s| - 1][|r|..] + [s[|s| - 1]];
      r
  }

  function Trim(s: string): string {
    TrimEnd(TrimStart(s))
  }

  /** `trim()` gives the empty string exactly for all-whitespace text. */
  lemma {:induction false} TrimEmptyIffBlank(s: string)
    ensures Trim(s) == [] <==> AllWhitespace(s)
  {
    var t := TrimStart(s);
    if Trim(s) == [] {
      assert AllWhitespace(t);
      assert t == [];
      assert s[..|s| - |t|] == s;
    }
  }

  // ---------------------------------------------------------------------------
  // The target amount: `parseFloat(s.replace(/[^\d,]/g, '').replace(',', '.'))`
  // ---------------------------------------------------------------------------

  predicate IsAmountChar(c: char) { IsDigit(c) || c == ',' || c == '.' }

  predicate AllAmountChars(s: string) {
    forall i | 0 <= i < |s| :: IsAmountChar(s[i])
  }

  /** `s.replace(/[^\d,]/g, '')`: the digits and commas of `s`, in order. */
  function KeepDigitsAndCommas(s: string): (r: string)
    ensures forall i | 0 <= i < |r| :: IsDigit(r[i]) || r[i] == ','
    ensures |r| <= |s|
  {
    if s == [] then []
    else (if IsDigit(s[0]) || s[0] == ',' then [s[0]] else []) + KeepDigitsAndCommas(s[1..])
  }

  lemma {:induction false} KeepDigitsAndCommasAppend(a: string, b: string)
    ensures KeepDigitsAndCommas(a + b) == KeepDigitsAndCommas(a) + KeepDigitsAndCommas(b)
  {
    if a == [] {
      assert a + b == b;
    } else {
      assert (a + b)[0] == a[0];
      assert (a + b)[1..] == a[1..] + b;
      KeepDigitsAndCommasAppend(a[1..], b);
    }
  }

  lemma {:induction false} KeepDigitsAndCommasOfDigits(s: string)
    requires AllDigits(s)
    ensures KeepDigitsAndCommas(s) == s
  {
    if s != [] {
      KeepDigitsAndCommasOfDigits(s[1..]);
      assert s == [s[0]] + s[1..];
    }
  }

  /** `s.replace(from, to)` with a one-character string pattern: only the first
      occurrence of `from` is replaced. */
  function ReplaceFirst(s: string, from: char, to: char): (r: string)
    ensures |r| == |s|
    ensures forall i | 0 <= i < |s| :: r[i] == s[i] || r[i] == to
  {
    if s == [] then []
    else if s[0] == from then [to] + s[1..]
    else [s[0]] + ReplaceFirst(s[1..], from, to)
  }

  /** Text without the pattern is left as it is. */
  lemma {:induction false} ReplaceFirstAbsent(s: string, from: char, to: char)
    requires from !in s
    ensures ReplaceFirst(s, from, to) == s
  {
    if s != [] {
      assert s[0] != from;
      ReplaceFirstAbsent(s[1..], from, to);
      assert s == [s[0]] + s[1..];
    }
  }

  /** Only the first occurrence changes; everything after it is kept. */
  lemma {:induction false} ReplaceFirstAt(a: string, b: string, from: char, to: char)
    requires from !in a
    ensures ReplaceFirst(a + [from] + b, from, to) == a + [to] + b
  {
    var s := a + [from] + b;
    if a == [] {
      assert s == [from] + b;
    } else {
      assert s[0] == a[0] && a[0] != from;
      assert s[1..] == a[1..] + [from] + b;
      ReplaceFirstAt(a[1..], b, from, to);
      assert a + [to] + b == [a[0]] + (a[1..] + [to] + b);
    }
  }

  /** A decimal number `mantissa / 10^scale`. */
  datatype Decimal = Decimal(mantissa: nat, scale: nat)

  /** The longest run of digits `s` starts with. */
  function DigitPrefix(s: string): (r: string)
    ensures AllDigits(r) && |r| <= |s| && r == s[..|r|]
    ensures |r| < |s| ==> !IsDigit(s[|r|])
  {
    if s == [] || !IsDigit(s[0]) then []
    else
      var r := DigitPrefix(s[1..]);
      assert [s[0]] + r == s[..|r| + 1];
      [s[0]] + r
  }

  lemma {:induction false} DigitPrefixOfDigitsThen(a: string, b: string)
    requires AllDigits(a)
    requires b == [] || !IsDigit(b[0])
    ensures DigitPrefix(a + b) == a
    decreases |a|
  {
    if a != [] {
      assert (a + b)[1..] == a[1..] + b;
      DigitPrefixOfDigitsThen(a[1..], b);
      assert a == [a[0]] + a[1..];
    } else {
      assert a + b == b;
    }
  }

  /** `parseFloat` on text made of digits, commas and points: the longest prefix of the
      form digits, optionally a point and more digits; NaN (`None`) when that prefix
      holds no digit. */
  function ParseFloat(s: string): (r: Option<Decimal>)
    requires AllAmountChars(s)
    ensures r.None? <==> (s == [] || !IsDigit(s[0])) && (|s| < 2 || s[0] != '.' || !IsDigit(s[1]))
    ensures r.Some? ==> r.value.scale < |s|
  {
    var whole := DigitPrefix(s);
    var rest := s[|whole|..];
    var frac := if rest != [] && rest[0] == '.' then DigitPrefix(rest[1..]) else [];
    if whole == [] && frac == [] then None
    else
      ValueOfAppend(whole, frac);
      Some(Decimal(ValueOf(whole + frac), |frac|))
  }

  /** A reading of whole digits, a point and fraction digits recovers both. */
  lemma {:induction false} ParseFloatPointed(whole: string, frac: string)
    requires AllDigits(whole) && AllDigits(frac) && whole != []
    ensures AllAmountChars(whole + ['.'] + frac)
    ensures AllDigits(whole + frac)
    ensures ParseFloat(whole + ['.'] + frac) == Some(Decimal(ValueOf(whole + frac), |frac|))
  {
    var tail := ['.'] + frac;
    var s := whole + tail;
    assert s == whole + ['.'] + frac;
    assert AllAmountChars(s) by {
      forall i | 0 <= i < |s| ensures IsAmountChar(s[i]) {
        if i < |whole| { assert s[i] == whole[i]; }
        else if i > |whole| { assert s[i] == frac[i - |whole| - 1]; }
      }
    }
    DigitPrefixOfDigitsThen(whole, tail);
    assert s[|whole|..] == tail;
    assert tail[1..] == frac + [];
    DigitPrefixOfDigitsThen(frac, []);
    ValueOfAppend(whole, frac);
  }

  // ---------------------------------------------------------------------------
  // The amount field's text: `(parseFloat(digits) / 100).toLocaleString('pt-BR', BRL)`
  // ---------------------------------------------------------------------------

  const NoBreakSpace: char := '\U{A0}'

  /** The currency prefix pt-BR puts before the number: "R$" and a no-break space. */
  const BrlPrefix: string := "R$" + [NoBreakSpace]

  /** A digit string split into groups of three from the right, joined by '.'. */
  function GroupThousands(d: string): (r: string)
    requires AllDigits(d)
    ensures |r| >= |d|
    ensures forall i | 0 <= i < |r| :: IsDigit(r[i]) || r[i] == '.'
    ensures d != [] ==> IsDigit(r[0]) && IsDigit(r[|r| - 1])
    decreases |d|
  {
    if |d| <= 3 then d
    else GroupThousands(d[..|d| - 3]) + ['.'] + d[|d| - 3..]
  }

  /** Text with neither digits nor commas cleans to the empty string. */
  lemma {:induction false} KeepDigitsAndCommasOfOther(s: string)
    requires forall i | 0 <= i < |s| :: !IsDigit(s[i]) && s[i] != ','
    ensures KeepDigitsAndCommas(s) == []
  {
    if s != [] {
      assert !IsDigit(s[0]) && s[0] != ',';
      KeepDigitsAndCommasOfOther(s[1..]);
    }
  }

  /** Dropping the grouping points gives the digits back. */
  lemma {:induction false} GroupThousandsDigits(d: string)
    requires AllDigits(d)
    ensures KeepDigitsAndCommas(GroupThousands(d)) == d
    decreases |d|
  {
    if |d| <= 3 {
      KeepDigitsAndCommasOfDigits(d);
    } else {
      var head, tail := d[..|d| - 3], d[|d| - 3..];
      var g := GroupThousands(head);
      assert GroupThousands(d) == g + ['.'] + tail;
      GroupThousandsDigits(head);
      CleanAfterPoint(g, tail);
      assert d == head + tail;
    }
  }

  /** Cleaning drops a grouping point and keeps the digit group after it. */
  lemma {:induction false} CleanAfterPoint(g: string, tail: string)
    requires AllDigits(tail)
    ensures KeepDigitsAndCommas(g + ['.'] + tail) == KeepDigitsAndCommas(g) + tail
  {
    KeepDigitsAndCommasAppend(g + ['.'], tail);
    KeepDigitsAndCommasAppend(g, ['.']);
    KeepDigitsAndCommasOfOther(['.']);
    KeepDigitsAndCommasOfDigits(tail);
  }

  /** A whole number of centavos as pt-BR currency text: the reais grouped by '.',
      a ',' and two centavo digits. */
  function BrlText(centavos: nat): (r: string)
    ensures |r| >= |BrlPrefix| + 4 && r[..|BrlPrefix|] == BrlPrefix
    ensures r[|r| - 3] == ','
  {
    BrlPrefix + GroupThousands(NatToDigits(centavos / 100)) + [','] + Pad2(centavos % 100)
  }

  /** The amount text is NaN's currency form when the typed text has no digit. */
  const NaNText: string := BrlPrefix + "NaN"

  /** Reading the amount text back as validation does. */
  function AmountValue(targetAmount: string): Option<Decimal> {
    var cleaned := ReplaceFirst(KeepDigitsAndCommas(targetAmount), ',', '.');
    assert AllAmountChars(cleaned);
    ParseFloat(cleaned)
  }

  /** Cleaning the currency text keeps the reais digits, the ',' and the centavo digits. */
  lemma {:induction false} BrlTextCleaned(centavos: nat)
    ensures KeepDigitsAndCommas(BrlText(centavos))
      == NatToDigits(centavos / 100) + [','] + Pad2(centavos % 100)
  {
    var w := NatToDigits(centavos / 100);
    var c := Pad2(centavos % 100);
    var g := GroupThousands(w);
    var rest := g + [','] + c;
    assert BrlText(centavos) == BrlPrefix + rest;
    KeepDigitsAndCommasOfOther(BrlPrefix);
    KeepDigitsAndCommasAppend(BrlPrefix, rest);
    KeepDigitsAndCommasAppend(g + [','], c);
    KeepDigitsAndCommasAppend(g, [',']);
    assert KeepDigitsAndCommas([',']) == [','] by {
      assert [','][1..] == [];
    }
    GroupThousandsDigits(w);
    KeepDigitsAndCommasOfDigits(c);
  }

  /** Text that cleans to "whole,frac" reads back as the decimal with those digits. */
  lemma {:induction false} AmountValueOfCleaned(text: string, whole: string, frac: string)
    requires AllDigits(whole) && AllDigits(frac) && whole != []
    requires KeepDigitsAndCommas(text) == whole + [','] + frac
    ensures AmountValue(text) == Some(Decimal(ValueOf(whole + frac), |frac|))
  {
    assert ',' !in whole by {
      assert forall i | 0 <= i < |whole| :: IsDigit(whole[i]);
    }
    ReplaceFirstAt(whole, frac, ',', '.');
    ParseFloatPointed(whole, frac);
  }

  /** The reais digits followed by the two centavo digits read as the centavo count. */
  lemma {:induction false} CentavoDigits(centavos: nat)
    ensures ValueOf(NatToDigits(centavos / 100) + Pad2(centavos % 100)) == centavos
  {
    ValueOfAppend(NatToDigits(centavos / 100), Pad2(centavos % 100));
    assert Pow10(2) == 100;
  }

  /** The currency text of a centavo count reads back as that many hundredths. */
  lemma {:induction false} BrlTextRoundTrip(centavos: nat)
    ensures AmountValue(BrlText(centavos)) == Some(Decimal(centavos, 2))
  {
    BrlTextCleaned(centavos);
    AmountValueOfCleaned(BrlText(centavos), NatToDigits(centavos / 100), Pad2(centavos % 100));
    CentavoDigits(centavos);
  }

  lemma {:induction false} NaNTextReadsAsNaN()
    ensures AmountValue(NaNText) == None
  {
    KeepDigitsAndCommasOfOther(NaNText);
  }

  // ---------------------------------------------------------------------------
  // The category menu
  // ---------------------------------------------------------------------------

  datatype GoalCategory = GoalCategory(id: string, name: string, icon: string)

  /** The goal categories the menu offers. */
  const GoalCategories: seq<GoalCategory> := [
    GoalCategory("travel", "Viagem", "airplane"),
    GoalCategory("savings", "Economia", "piggy-bank"),
    GoalCategory("electronics", "Eletrônicos", "laptop"),
    GoalCategory("car", "Carro", "car"),
    GoalCategory("home", "Casa", "home"),
    GoalCategory("education", "Educação", "school"),
    GoalCategory("other", "Outro", "star")
  ]

  // ---------------------------------------------------------------------------
  // The form and its validation
  // ---------------------------------------------------------------------------

  /** The form's fields; the deadline and the clock are milliseconds since the epoch. */
  datatype Form = Form(title: string, description: string, targetAmount: string, category: string, deadline: int)

  datatype FormErrors = FormErrors(
    title: Option<string>,
    targetAmount: Option<string>,
    category: Option<string>,
    deadline: Option<string>)
  {
    predicate Clear() {
      title.None? && targetAmount.None? && category.None? && deadline.None?
    }
  }

  const NoErrors := FormErrors(None, None, None, None)

  const TitleRequired := "O título é obrigatório"
  const InvalidAmount := "Insira um valor válido"
  const CategoryRequired := "Selecione uma categoria"
  const DeadlineInPast := "A data deve ser futura"

  /** The amount is refused when it reads as NaN or as a value that is not positive. */
  predicate AmountRefused(targetAmount: string) {
    match AmountValue(targetAmount)
    case None => true
    case Some(d) => d.mantissa == 0
  }

  /** `validateForm`: one message per failing field; the form is valid when there is none. */
  function ValidateForm(form: Form, now: int): (r: (bool, FormErrors))
    ensures r.0 <==> r.1.Clear()
    ensures r.1.title == if AllWhitespace(form.title) then Some(TitleRequired) else None
    ensures r.1.targetAmount == if AmountRefused(form.targetAmount) then Some(InvalidAmount) else None
    ensures r.1.category == if form.category == "" then Some(CategoryRequired) else None
    ensures r.1.deadline == if form.deadline < now then Some(DeadlineInPast) else None
  {
    TrimEmptyIffBlank(form.title);
    var errors := FormErrors(
      if Trim(form.title) == [] then Some(TitleRequired) else None,
      if AmountRefused(form.targetAmount) then Some(InvalidAmount) else None,
      if form.category == "" then Some(CategoryRequired) else None,
      if form.deadline < now then Some(DeadlineInPast) else None);
    (errors.Clear(), errors)
  }

  /** The form as the screen opens it: empty fields and the deadline set to the opening time. */
  function InitialForm(openedAt: int): Form {
    Form("", "", "", "", openedAt)
  }

  /** `handleAmountChange`: the typed digits become centavos shown as pt-BR currency;
      nothing but the amount changes. */
  function HandleAmountChange(form: Form, text: string): (r: Form)
    ensures r == form.(targetAmount := r.targetAmount)
    ensures KeepDigits(text) == [] ==> r.targetAmount == NaNText
    ensures KeepDigits(text) != [] ==> r.targetAmount == BrlText(ValueOf(KeepDigits(text)))
  {
    match ParseDigits(KeepDigits(text))
    case None => form.(targetAmount := NaNText)
    case Some(n) => form.(targetAmount := BrlText(n))
  }

  /** Validation after an amount edit refuses it exactly when the typed text has no
      digit or its digits are all zero. */
  lemma {:induction false} AmountRefusedAfterChange(form: Form, text: string)
    ensures AmountRefused(HandleAmountChange(form, text).targetAmount)
      <==> KeepDigits(text) == [] || ValueOf(KeepDigits(text)) == 0
  {
    if KeepDigits(text) == [] {
      NaNTextReadsAsNaN();
    } else {
      BrlTextRoundTrip(ValueOf(KeepDigits(text)));
    }
  }

  /** Each field's verdict depends on that field alone (and the deadline's on the clock). */
  lemma {:induction false} ValidationIsPerField(a: Form, b: Form, now: int)
    ensures a.title == b.title ==> ValidateForm(a, now).1.title == ValidateForm(b, now).1.title
    ensures a.targetAmount == b.targetAmount ==>
      ValidateForm(a, now).1.targetAmount == ValidateForm(b, now).1.targetAmount
    ensures a.category == b.category ==> ValidateForm(a, now).1.category == ValidateForm(b, now).1.category
    ensures a.deadline == b.deadline ==> ValidateForm(a, now).1.deadline == ValidateForm(b, now).1.deadline
  {
  }

  /** The freshly opened form fails on title, amount and category, and on the deadline
      as soon as the clock has moved past the opening time. */
  lemma {:induction false} InitialFormErrors(openedAt: int, now: int)
    requires openedAt <= now
    ensures var e := ValidateForm(InitialForm(openedAt), now).1;
      e.title == Some(TitleRequired) && e.targetAmount == Some(InvalidAmount)
      && e.category == Some(CategoryRequired)
      && (e.deadline.Some? <==> openedAt < now)
  {
    EmptyAmountRefused();
    var e := ValidateForm(InitialForm(openedAt), now).1;
    assert AllWhitespace("");
  }

  /** An empty amount reads as NaN. */
  lemma {:induction false} EmptyAmountRefused()
    ensures AmountValue("") == None
  {
    assert KeepDigitsAndCommas("") == [];
    assert ReplaceFirst([], ',', '.') == [];
  }

  // ---------------------------------------------------------------------------
  // The save buttons
  // ---------------------------------------------------------------------------

  /** What the screen keeps: the form, the errors of the last validation, and whether a
      validated save has left the screen. */
  datatype Screen = Screen(form: Form, errors: FormErrors, saved: bool)

  datatype Action =
    | EditTitle(title: string)
    | EditDescription(description: string)
    | EditAmount(text: string)
    | PickCategory(category: string)
    | PickDeadline(picked: Option<int>)
    | PressSave(now: int)

  function OpenScreen(openedAt: int): Screen {
    Screen(InitialForm(openedAt), NoErrors, false)
  }

  /** The field edits; none of them touches the stored errors. */
  function Edit(form: Form, a: Action): (r: Form)
    requires !a.PressSave?
  {
    match a
    case EditTitle(t) => form.(title := t)
    case EditDescription(d) => form.(description := d)
    case EditAmount(text) => HandleAmountChange(form, text)
    case PickCategory(c) => form.(category := c)
    case PickDeadline(picked) => if picked.Some? then form.(deadline := picked.value) else form
  }

  /** Both save buttons are `disabled={Object.keys(errors).length > 0}`: a press only
      reaches `handleSubmit` while the last validation left no error. */
  function StepAsWritten(s: Screen, a: Action): (r: Screen)
    ensures a.PressSave? && !s.errors.Clear() ==> r == s
    ensures !a.PressSave? ==> r.errors == s.errors && r.saved == s.saved
  {
    if s.saved then s
    else match a
      case PressSave(now) =>
        if !s.errors.Clear() then s
        else
          var (valid, errors) := ValidateForm(s.form, now);
          Screen(s.form, errors, valid)
      case _ => s.(form := Edit(s.form, a))
  }

  function RunAsWritten(s: Screen, actions: seq<Action>): Screen
    decreases |actions|
  {
    if actions == [] then s else RunAsWritten(StepAsWritten(s, actions[0]), actions[1..])
  }

  /** Once a validation has failed, no sequence of edits and presses ever saves the goal:
      the stored errors can only be cleared by a validation the disabled buttons block. */
  lemma {:induction false} AsWrittenLocksAfterFailure(s: Screen, actions: seq<Action>)
    requires !s.saved && !s.errors.Clear()
    ensures !RunAsWritten(s, actions).saved
    ensures RunAsWritten(s, actions).errors == s.errors
    decreases |actions|
  {
    if actions != [] {
      AsWrittenLocksAfterFailure(StepAsWritten(s, actions[0]), actions[1..]);
    }
  }

  /** Press save on the empty form, fill every field in correctly, press save again. */
  const CounterexampleRun: seq<Action> := [
    PressSave(1000), EditTitle("Viagem"), EditAmount("100"),
    PickCategory("travel"), PickDeadline(Some(2000)), PressSave(1000)]

  /** The form the run ends with: every field filled in correctly. */
  const Filled := Form("Viagem", "", BrlText(100), "travel", 2000)

  lemma {:induction false} FilledIsValid()
    ensures ValidateForm(Filled, 1000).0
  {
    BrlTextRoundTrip(100);
    assert !IsJsWhitespace(Filled.title[0]);
  }

  lemma {:induction false} TypedAmount(form: Form)
    ensures HandleAmountChange(form, "100") == form.(targetAmount := BrlText(100))
  {
    KeepDigitsOfDigits("100");
    assert ValueOf("100") == 100 by {
      assert "100"[..2] == "10" && "10"[..1] == "1";
    }
  }

  /** The first press on the freshly opened form fails and stores errors. */
  lemma {:induction false} FirstPressFails()
    ensures var s1 := StepAsWritten(OpenScreen(0), PressSave(1000));
      !s1.saved && !s1.errors.Clear() && s1.form == InitialForm(0)
  {
    InitialFormErrors(0, 1000);
  }

  /** The run's first two edits enter the title and the amount. */
  lemma {:induction false} TitleAndAmountEdits(s1: Screen)
    requires !s1.saved && s1.form == InitialForm(0)
    ensures RunAsWritten(s1, CounterexampleRun[1..])
      == RunAsWritten(Screen(Form("Viagem", "", BrlText(100), "", 0), s1.errors, false), CounterexampleRun[3..])
  {
    var e := s1.errors;
    var rest := CounterexampleRun[2..];
    assert CounterexampleRun[1..] == [EditTitle("Viagem")] + rest;
    var s2 := Screen(Form("Viagem", "", "", "", 0), e, false);
    assert StepAsWritten(s1, EditTitle("Viagem")) == s2;
    TypedAmount(s2.form);
    assert StepAsWritten(s2, rest[0]) == Screen(Form("Viagem", "", BrlText(100), "", 0), e, false);
    assert rest[1..] == CounterexampleRun[3..];
  }

  /** The run's remaining steps pick the category and the deadline, whatever amount was typed. */
  lemma {:induction false} CategoryAndDeadlineEdits(e: FormErrors, amount: string)
    ensures RunAsWritten(Screen(Form("Viagem", "", amount, "", 0), e, false), CounterexampleRun[3..]).form
      == Form("Viagem", "", amount, "travel", 2000)
  {
    var rest := CounterexampleRun[3..];
    assert rest == [PickCategory("travel"), PickDeadline(Some(2000)), PressSave(1000)];
    var s3 := Screen(Form("Viagem", "", amount, "", 0), e, false);
    var s4 := Screen(Form("Viagem", "", amount, "travel", 0), e, false);
    assert StepAsWritten(s3, rest[0]) == s4;
    var s5 := Screen(Form("Viagem", "", amount, "travel", 2000), e, false);
    assert StepAsWritten(s4, rest[1]) == s5;
    assert RunAsWritten(s3, rest) == RunAsWritten(s4, rest[1..]);
    assert RunAsWritten(s4, rest[1..]) == RunAsWritten(s5, rest[2..]);
    assert RunAsWritten(s5, rest[2..]).form == StepAsWritten(s5, PressSave(1000)).form;
  }

  /** The run's edits leave the form filled in. */
  lemma {:induction false} EditsFillTheForm(s1: Screen)
    requires !s1.saved && s1.form == InitialForm(0)
    ensures RunAsWritten(s1, CounterexampleRun[1..]).form == Filled
  {
    TitleAndAmountEdits(s1);
    CategoryAndDeadlineEdits(s1.errors, BrlText(100));
  }

  /** A concrete run: saving the empty form fails, every field is then filled in
      correctly, and the second press still does not save. */
  lemma {:induction false} AsWrittenCounterexample()
    ensures RunAsWritten(OpenScreen(0), CounterexampleRun).form == Filled
    ensures ValidateForm(Filled, 1000).0
    ensures !RunAsWritten(OpenScreen(0), CounterexampleRun).saved
  {
    FilledIsValid();
    var s1 := StepAsWritten(OpenScreen(0), PressSave(1000));
    FirstPressFails();
    assert RunAsWritten(OpenScreen(0), CounterexampleRun) == RunAsWritten(s1, CounterexampleRun[1..]);
    AsWrittenLocksAfterFailure(s1, CounterexampleRun[1..]);
    EditsFillTheForm(s1);
  }

  /** The evidently intended buttons: every press validates the current form, and the
      stored errors only drive the messages. */
  function Step(s: Screen, a: Action): (r: Screen)
    ensures a.PressSave? && !s.saved ==>
      r.form == s.form && (r.saved <==> ValidateForm(s.form, a.now).0)
    ensures !a.PressSave? ==> r.errors == s.errors && r.saved == s.saved
  {
    if s.saved then s
    else match a
      case PressSave(now) =>
        var (valid, errors) := ValidateForm(s.form, now);
        Screen(s.form, errors, valid)
      case _ => s.(form := Edit(s.form, a))
  }

  function Run(s: Screen, actions: seq<Action>): Screen
    decreases |actions|
  {
    if actions == [] then s else Run(Step(s, actions[0]), actions[1..])
  }

  /** Running one more action is one more step. */
  lemma {:induction false} RunSnoc(s: Screen, actions: seq<Action>, last: Action)
    ensures Run(s, actions + [last]) == Step(Run(s, actions), last)
    decreases |actions|
  {
    if actions == [] {
      assert Run(s, [last]) == Run(Step(s, last), []);
    } else {
      RunFirstStep(s, actions, last);
      RunSnoc(Step(s, actions[0]), actions[1..], last);
    }
  }

  lemma {:induction false} RunFirstStep(s: Screen, actions: seq<Action>, last: Action)
    requires actions != []
    ensures Run(s, actions) == Run(Step(s, actions[0]), actions[1..])
    ensures Run(s, actions + [last]) == Run(Step(s, actions[0]), actions[1..] + [last])
  {
    assert (actions + [last])[0] == actions[0];
    assert (actions + [last])[1..] == actions[1..] + [last];
  }

  /** With the corrected buttons, whatever happened before, a press on a form that
      validates saves it. */
  lemma {:induction false} SaveAfterCorrection(s: Screen, actions: seq<Action>, now: int)
    requires ValidateForm(Run(s, actions).form, now).0
    ensures Run(s, actions + [PressSave(now)]).saved
  {
    RunSnoc(s, actions, PressSave(now));
  }

  lemma {:induction false} SavedStaysSaved(s: Screen, actions: seq<Action>)
    requires s.saved
    ensures Run(s, actions) == s
    decreases |actions|
  {
    if actions != [] {
      SavedStaysSaved(Step(s, actions[0]), actions[1..]);
    }
  }
}

=== FILE: goals.dfy ===
/** The goals list: progress colours, remaining days, the status chip, the category
    icon and the category filter. Amounts are whole centavos and instants are
    milliseconds since the epoch; the clock is a parameter. */
module Goals {
  import opened Wrappers
  import Seqs
  import opened JsNumber
  import opened Palette
  import Calendar
  import GoalForm

  datatype Goal = Goal(
    id: string,
    title: string,
    targetAmount: int,
    currentAmount: int,
    deadline: int,
    category: Option<string>,
    description: Option<string>)

  // ---------------------------------------------------------------------------
  // Progress colour
  // ---------------------------------------------------------------------------

  /** `getProgressColor`: the bands of `current / target` at 0.8, 0.5 and 0.3, each
      lower bound inclusive. */
  function ProgressTone(current: int, target: int): (t: Tone)
    ensures target > 0 ==>
      && (t == Success <==> 5 * current >= 4 * target)
      && (t == Info <==> 2 * current >= target && 5 * current < 4 * target)
      && (t == Warning <==> 10 * current >= 3 * target && 2 * current < target)
      && (t == Error <==> 10 * current < 3 * target)
    ensures target == 0 ==> (t == Success <==> current > 0) && (t == Error <==> current <= 0)
  {
    var progress := Divide(current, target);
    if AtLeast(progress, 4, 5) then Success
    else if AtLeast(progress, 1, 2) then Info
    else if AtLeast(progress, 3, 10) then Warning
    else Error
  }

  /** Saving more towards the same target never moves a goal to a worse band. */
  lemma {:induction false} ProgressToneMonotone(current1: int, current2: int, target: int)
    requires target >= 0 && current1 <= current2
    ensures Rank(ProgressTone(current1, target)) <= Rank(ProgressTone(current2, target))
  {
  }

  /** Only the ratio counts: negating both amounts gives the same band. */
  lemma {:induction false} ProgressToneSignSymmetric(current: int, target: int)
    requires target != 0
    ensures ProgressTone(-current, -target) == ProgressTone(current, target)
  {
    assert Divide(-current, -target) == Divide(current, target);
  }

  // ---------------------------------------------------------------------------
  // Remaining days and the status chip
  // ---------------------------------------------------------------------------

  const MillisPerDay := 1000 * 60 * 60 * 24

  /** `getRemainingDays`: whole days to the deadline, rounded up. */
  function RemainingDays(deadline: int, now: int): (days: int)
    ensures (days - 1) * MillisPerDay < deadline - now <= days * MillisPerDay
  {
    CeilDiv(deadline - now, MillisPerDay)
  }

  /** The count turns negative only a full day after the deadline, and is positive
      exactly while the deadline is still ahead. */
  lemma {:induction false} RemainingDaysSign(deadline: int, now: int)
    ensures RemainingDays(deadline, now) < 0 <==> deadline - now <= -MillisPerDay
    ensures RemainingDays(deadline, now) > 0 <==> deadline > now
  {
    var days := RemainingDays(deadline, now);
    MulLe(days, -1, MillisPerDay);
    MulLe(1, days, MillisPerDay);
  }

  datatype Status = Status(caption: string, tone: Tone)

  const Done := Status("Concluído", Success)
  const Urgent := Status("Urgente", Error)
  const AlmostThere := Status("Quase lá!", Info)
  const InProgress := Status("Em andamento", Warning)

  /** `getStatusChip`: completion first, then fewer than 30 days left, then 80% saved. */
  function StatusChip(goal: Goal, now: int): (s: Status)
    ensures goal.targetAmount > 0 ==>
      var (current, target, days) := (goal.currentAmount, goal.targetAmount, RemainingDays(goal.deadline, now));
      && (s == Done <==> current >= target)
      && (s == Urgent <==> current < target && days < 30)
      && (s == AlmostThere <==> current < target && days >= 30 && 5 * current >= 4 * target)
      && (s == InProgress <==> current < target && days >= 30 && 5 * current < 4 * target)
  {
    var progress := Divide(goal.currentAmount, goal.targetAmount);
    var daysRemaining := RemainingDays(goal.deadline, now);
    if AtLeast(progress, 1, 1) then Done
    else if daysRemaining < 30 then Urgent
    else if AtLeast(progress, 4, 5) then AlmostThere
    else InProgress
  }

  /** A reached goal is "Concluído" however close or past its deadline, so never "Urgente". */
  lemma {:induction false} ReachedGoalNeverUrgent(goal: Goal, now: int)
    requires goal.targetAmount > 0 && goal.currentAmount >= goal.targetAmount
    ensures StatusChip(goal, now) == Done
    ensures StatusChip(goal, now).caption != "Urgente"
  {
  }

  /** With a zero target and nothing saved the ratio is NaN, which is not complete:
      such a goal near its deadline shows "Urgente". */
  lemma {:induction false} EmptyZeroGoalCanBeUrgent(goal: Goal, now: int)
    requires goal.targetAmount == 0 && goal.currentAmount == 0
    requires goal.deadline <= now
    ensures StatusChip(goal, now) == Urgent
  {
    RemainingDaysSign(goal.deadline, now);
  }

  // ---------------------------------------------------------------------------
  // Category icon and filter
  // ---------------------------------------------------------------------------

  /** `getGoalIcon`: five known categories, 'star' for any other value or none. */
  function GoalIcon(category: Option<string>): (icon: string)
    ensures icon == "star" <==>
      category !in {Some("travel"), Some("savings"), Some("electronics"), Some("car"), Some("home")}
  {
    match category
    case Some("travel") => "airplane"
    case Some("savings") => "piggy-bank"
    case Some("electronics") => "laptop"
    case Some("car") => "car"
    case Some("home") => "home"
    case _ => "star"
  }

  /** The list's icons agree with the new-goal menu's except for 'education', which
      the list draws as the default star instead of the menu's school. */
  lemma {:induction false} GoalIconAgreesWithMenu()
    ensures forall i | 0 <= i < |GoalForm.GoalCategories| && GoalForm.GoalCategories[i].id != "education" ::
      GoalIcon(Some(GoalForm.GoalCategories[i].id)) == GoalForm.GoalCategories[i].icon
    ensures GoalForm.GoalCategories[5].id == "education"
    ensures GoalIcon(Some("education")) == "star" != GoalForm.GoalCategories[5].icon
  {
  }

  /** The list's test: `filter === 'all' || goal.category === filter`. */
  function FilterTest(filter: string): Goal -> bool {
    (g: Goal) => filter == "all" || g.category == Some(filter)
  }

  function FilterGoals(goals: seq<Goal>, filter: string): (r: seq<Goal>)
    ensures filter == "all" ==> r == goals
    ensures forall g :: g in r <==> g in goals && (filter == "all" || g.category == Some(filter))
  {
    var r := Seqs.Filter(FilterTest(filter), goals);
    assert filter == "all" ==> r == goals by {
      if filter == "all" {
        Seqs.FilterAllPass(FilterTest(filter), goals);
      }
    }
    assert forall g :: g in r <==> g in goals && FilterTest(filter)(g) by {
      forall g ensures g in r <==> g in goals && FilterTest(filter)(g) {
        Seqs.FilterMembership(FilterTest(filter), goals, g);
      }
    }
    r
  }

  /** Nothing is duplicated: a kept goal occurs as often as in the input. */
  lemma {:induction false} FilterGoalsMultiplicity(goals: seq<Goal>, filter: string, g: Goal)
    ensures multiset(FilterGoals(goals, filter))[g]
      == if filter == "all" || g.category == Some(filter) then multiset(goals)[g] else 0
  {
    Seqs.FilterMultiplicity(FilterTest(filter), goals, g);
  }

  /** Milliseconds since the epoch of midnight UTC of a date, as `new Date('YYYY-MM-DD')` gives. */
  function EpochMillis(d: Calendar.Date): int
    requires Calendar.Valid(d)
  {
    (Calendar.DayNumber(d) - Calendar.DayNumber(Calendar.Date(1970, 1, 1))) * MillisPerDay
  }

  /** The list's sample goals. */
  function SampleGoals(): seq<Goal> {
    [
      Goal("1", "Viagem para Europa", 1500000, 500000, EpochMillis(Calendar.Date(2024, 12, 31)),
           Some("travel"), Some("Férias em família pela Europa")),
      Goal("2", "Fundo de Emergência", 3000000, 1200000, EpochMillis(Calendar.Date(2024, 6, 30)),
           Some("savings"), Some("6 meses de despesas")),
      Goal("3", "Novo Notebook", 800000, 600000, EpochMillis(Calendar.Date(2024, 4, 30)),
           Some("electronics"), Some("MacBook Pro para trabalho"))
    ]
  }

  /** The menu's "Em andamento" and "Concluídas" set the filter to 'active' and
      'completed', which are compared with the category: they empty the list instead of
      selecting goals by status. */
  lemma {:induction false} StatusMenuEmptiesList()
    ensures FilterGoals(SampleGoals(), "active") == []
    ensures FilterGoals(SampleGoals(), "completed") == []
  {
    Seqs.FilterNonePass(FilterTest("active"), SampleGoals());
    Seqs.FilterNonePass(FilterTest("completed"), SampleGoals());
  }
}

=== FILE: home.dfy ===
/** The home dashboard's alert styling and the alerts' navigation, including the
    drill-down into the food category. The money helpers it shares with the
    transactions list are `MoneyDisplay`'s. */
module Home {
  import opened Wrappers
  import Seqs
  import opened Palette
  import opened JsNumber
  import CategoryDetails
  import Reports

  /** A recent transaction on the dashboard, amount in centavos. */
  datatype HomeTransaction = HomeTransaction(
    id: int, description: string, amount: int, category: string, date: string, icon: string)

  /** `getAlertIcon`: warning and success get their own icon, anything else "information". */
  function AlertIcon(kind: string): (icon: string)
    ensures icon == "alert-circle" <==> kind == "warning"
    ensures icon == "check-circle" <==> kind == "success"
    ensures icon == "information" <==> kind != "warning" && kind != "success"
  {
    match kind
    case "warning" => "alert-circle"
    case "success" => "check-circle"
    case "info" => "information"
    case _ => "information"
  }

  /** The dashboard's fallback grey, a different grey from the reports screen's. */
  const DefaultAlertGrey := "#757575"

  /** `getAlertColor`: three fixed colours and a grey for any other value. */
  function AlertColor(kind: string): (color: string)
    ensures color == DefaultAlertGrey <==> kind !in {"warning", "success", "info"}
    ensures kind == "warning" ==> color == "#FFA726"
    ensures kind == "success" ==> color == "#66BB6A"
    ensures kind == "info" ==> color == "#42A5F5"
  {
    match kind
    case "warning" => "#FFA726"
    case "success" => "#66BB6A"
    case "info" => "#42A5F5"
    case _ => DefaultAlertGrey
  }

  /** The dashboard's alerts and the reports screen's insights share their three
      colours and differ only in the fallback grey. */
  lemma {:induction false} AlertColorsMatchInsightColors(kind: string)
    ensures kind in {"warning", "success", "info"} ==> AlertColor(kind) == Reports.InsightColor(kind)
    ensures kind !in {"warning", "success", "info"} ==> AlertColor(kind) != Reports.InsightColor(kind)
  {
  }

  /** Where pressing an alert goes; an alert of any other type does nothing. */
  datatype Destination =
    | ToCategoryDetails(params: CategoryDetails.Params)
    | ToGoals(highlightCompleted: bool)
    | ToReports(initialPeriod: string)
    | Nowhere

  /** The food category's name, the one the warning drills into. */
  const Food := "Alimentação"

  function FoodTest(): HomeTransaction -> bool {
    (t: HomeTransaction) => t.category == Food
  }

  /** A dashboard transaction as the details screen receives it: it carries no type. */
  function AsEntry(t: HomeTransaction): CategoryDetails.Entry {
    CategoryDetails.Entry(t.description, t.amount, t.date, t.category, None)
  }

  function AsEntries(ts: seq<HomeTransaction>): (es: seq<CategoryDetails.Entry>)
    ensures |es| == |ts| && forall i | 0 <= i < |ts| :: es[i] == AsEntry(ts[i])
  {
    if ts == [] then [] else [AsEntry(ts[0])] + AsEntries(ts[1..])
  }

  /** The alerts' press handler: a warning opens the food category with a limit of
      R$ 1.000,00, R$ 850,00 spent and the recent food transactions. */
  function AlertPress(kind: string, recent: seq<HomeTransaction>): (d: Destination)
    ensures d.ToCategoryDetails? <==> kind == "warning"
    ensures d.ToGoals? <==> kind == "success"
    ensures d.ToReports? <==> kind == "info"
    ensures d.ToCategoryDetails? ==>
      d.params.category == Food && d.params.limit == 100000 && d.params.spent == 85000
    ensures kind == "success" ==> d == ToGoals(true)
    ensures kind == "info" ==> d == ToReports("month")
  {
    match kind
    case "warning" =>
      ToCategoryDetails(CategoryDetails.Params(Food, 100000, 85000, AsEntries(Seqs.Filter(FoodTest(), recent))))
    case "success" => ToGoals(true)
    case "info" => ToReports("month")
    case _ => Nowhere
  }

  /** The drill-down receives exactly the recent food transactions, each as often as it
      occurs and in the original order. */
  lemma {:induction false} DrillDownPassesFoodTransactions(recent: seq<HomeTransaction>, t: HomeTransaction)
    ensures var passed := Seqs.Filter(FoodTest(), recent);
      && AlertPress("warning", recent).params.transactions == AsEntries(passed)
      && (t in passed <==> t in recent && t.category == Food)
      && multiset(passed)[t] == if t.category == Food then multiset(recent)[t] else 0
  {
    Seqs.FilterMembership(FoodTest(), recent, t);
    Seqs.FilterMultiplicity(FoodTest(), recent, t);
  }

  /** The dashboard's recent transactions. */
  const Recent: seq<HomeTransaction> := [
    HomeTransaction(1, "Supermercado Extra", -15675, "Alimentação", "2024-03-15", "food"),
    HomeTransaction(2, "Salário", 500000, "Receita", "2024-03-10", "cash-plus"),
    HomeTransaction(3, "Netflix", -3990, "Lazer", "2024-03-08", "movie"),
    HomeTransaction(4, "Uber", -2550, "Transporte", "2024-03-07", "car")
  ]

  /** With the dashboard's data the warning opens a details screen showing the error
      colour, "85%" used and the one supermarket purchase. */
  lemma {:induction false} WarningDrillDown()
    ensures var d := AlertPress("warning", Recent);
      && CategoryDetails.UsageTone(d.params.spent, d.params.limit) == Error
      && CategoryDetails.PercentUsed(d.params.spent, d.params.limit) == Fraction(85, 1)
      && d.params.transactions == [AsEntry(Recent[0])]
  {
    var p := CategoryDetails.PercentUsed(85000, 100000);
    assert 17000000 - 100000 < 200000 * p.num <= 17000000 + 100000;
    var f := FoodTest();
    assert Seqs.Filter(f, Recent[3..]) == [] by {
      assert Recent[3..][1..] == [];
    }
    assert Seqs.Filter(f, Recent[2..]) == [] by {
      assert Recent[2..][1..] == Recent[3..];
    }
    assert Seqs.Filter(f, Recent[1..]) == [] by {
      assert Recent[1..][1..] == Recent[2..];
    }
    assert Seqs.Filter(f, Recent) == [Recent[0]];
    assert AsEntries([Recent[0]]) == [AsEntry(Recent[0])];
  }
}

=== FILE: js_number.dfy ===
/** The JavaScript numbers the screens compute from whole amounts: the quotient of two
    integers, kept as an exact fraction, and the comparisons and rounding applied to it.
    Floating-point rounding is not modelled; every fraction is exact. */
module JsNumber {

  /** `n / d` for integers: an exact fraction `num / den` with `den > 0`, one of the
      infinities a division by zero gives, or NaN (`0 / 0`). */
  datatype Quotient = Fraction(num: int, den: nat) | PosInf | NegInf | NaN {
    predicate WellFormed() { Fraction? ==> den > 0 }
  }

  /** JavaScript's `/` on two integers. */
  function Divide(n: int, d: int): (q: Quotient)
    ensures q.WellFormed()
    ensures q.Fraction? <==> d != 0
    ensures q.Fraction? ==> q.num * d == n * q.den
    ensures q == PosInf <==> d == 0 && n > 0
    ensures q == NegInf <==> d == 0 && n < 0
    ensures q == NaN <==> d == 0 && n == 0
  {
    if d > 0 then Fraction(n, d)
    else if d < 0 then Fraction(-n, -d)
    else if n > 0 then PosInf
    else if n < 0 then NegInf
    else NaN
  }

  /** `q >= a / b` (NaN compares false with everything). */
  predicate AtLeast(q: Quotient, a: int, b: nat)
    requires q.WellFormed() && b > 0
  {
    match q
    case Fraction(n, d) => n * b >= a * d
    case PosInf => true
    case NegInf => false
    case NaN => false
  }

  /** `q > a / b`. */
  predicate Exceeds(q: Quotient, a: int, b: nat)
    requires q.WellFormed() && b > 0
  {
    match q
    case Fraction(n, d) => n * b > a * d
    case PosInf => true
    case NegInf => false
    case NaN => false
  }

  /** `q * k` for a positive integer `k`. */
  function Times(q: Quotient, k: nat): (r: Quotient)
    requires q.WellFormed() && k > 0
    ensures r.WellFormed()
    ensures r.Fraction? <==> q.Fraction?
    ensures r.Fraction? ==> r.num * q.den == q.num * k * r.den
  {
    match q
    case Fraction(n, d) => Fraction(n * k, d)
    case _ => q
  }

  /** `Math.round`: the integer nearest to `q`, halves rounded up; the infinities and
      NaN are returned as they are. */
  function Round(q: Quotient): (r: Quotient)
    requires q.WellFormed()
    ensures r.WellFormed()
    ensures r.Fraction? <==> q.Fraction?
    ensures r.Fraction? ==>
      r.den == 1 && 2 * q.num - q.den < 2 * r.num * q.den <= 2 * q.num + q.den
    ensures !r.Fraction? ==> r == q
  {
    match q
    case Fraction(n, d) =>
      var m := (2 * n + d) / (2 * d);
      assert 2 * d * m <= 2 * n + d < 2 * d * m + 2 * d;
      Fraction(m, 1)
    case _ => q
  }

  /** `Math.ceil(n / d)` for a positive divisor. */
  function CeilDiv(n: int, d: int): (c: int)
    requires d > 0
    ensures (c - 1) * d < n <= c * d
  {
    if n % d == 0 then n / d else n / d + 1
  }

  /** Exactly one integer lies in the half-open step `CeilDiv` picks. */
  lemma {:induction false} CeilDivUnique(n: int, d: int, c: int)
    requires d > 0 && (c - 1) * d < n <= c * d
    ensures c == CeilDiv(n, d)
  {
    var e := CeilDiv(n, d);
    MulLe(c, e - 1, d);
    MulLe(e, c - 1, d);
  }

  lemma {:induction false} MulLe(x: int, y: int, d: int)
    requires d > 0
    ensures x <= y <==> x * d <= y * d
  {
  }

  /** A larger threshold is harder to meet. */
  lemma {:induction false} AtLeastWeakens(q: Quotient, a1: int, b1: nat, a2: int, b2: nat)
    requires q.WellFormed() && b1 > 0 && b2 > 0
    requires a1 * b2 <= a2 * b1
    requires AtLeast(q, a2, b2)
    ensures AtLeast(q, a1, b1)
  {
    if q.Fraction? {
      var n, d := q.num, q.den;
      assert n * b2 >= a2 * d;
      assert (n * b1) * b2 == (n * b2) * b1;
      assert (n * b2) * b1 >= (a2 * d) * b1;
      assert (a2 * b1) * d >= (a1 * b2) * d;
      assert (a1 * d) * b2 == (a1 * b2) * d;
    }
  }
}

=== FILE: money_display.dfy ===
/** The money helpers the transactions list and the home dashboard both define
    (`formatCurrency` and `getTransactionColor`, identical in the two screens). */
module MoneyDisplay {
  import opened NumericText

  /** `COLORS.transaction.income` and `COLORS.transaction.expense` of the theme. */
  const IncomeColor := "#28A745"
  const ExpenseColor := "#DC3545"

  /** `R$ ${Math.abs(value).toFixed(2)}` for a value of `value` centavos. */
  function FormatCurrency(value: int): (r: string)
    ensures |r| >= 7 && r[..3] == "R$ "
    ensures forall i | 3 <= i < |r| :: IsDecimalChar(r[i])
    ensures ValueOf(KeepDigits(r)) == Abs(value)
  {
    var amount := Unsigned2(Abs(value));
    KeepDigitsAppend("R$ ", amount);
    KeepDigitsOfNoDigits("R$ ");
    assert KeepDigits("R$ " + amount) == KeepDigits(amount);
    "R$ " + amount
  }

  /** The text is "R$ ", a whole part without leading zeros, a point and exactly two
      decimals (with `FormatCurrencyUnique`, this pins the text down completely). */
  lemma {:induction false} FormatCurrencyShape(value: int)
    ensures var r := FormatCurrency(value);
      && r[|r| - 3] == '.' && AllDigits(r[3..|r| - 3]) && AllDigits(r[|r| - 2..])
      && (r[3] == '0' ==> |r| == 7)
  {
    var amount := Unsigned2(Abs(value));
    var r := FormatCurrency(value);
    assert r == "R$ " + amount;
    assert r[3..|r| - 3] == amount[..|amount| - 3];
    assert r[|r| - 2..] == amount[|amount| - 2..];
  }

  /** The shape stated by `FormatCurrency` determines the text: the prefix, a whole part
      without leading zeros, a point and two decimals whose digits read as `|value|`
      leave exactly one string. */
  lemma {:induction false} FormatCurrencyUnique(r: string, value: int)
    requires |r| >= 7 && r[..3] == "R$ "
    requires r[|r| - 3] == '.' && AllDigits(r[3..|r| - 3]) && AllDigits(r[|r| - 2..])
    requires r[3] == '0' ==> |r| == 7
    requires ValueOf(KeepDigits(r)) == Abs(value)
    ensures r == FormatCurrency(value)
  {
    var amount := r[3..];
    assert r == "R$ " + amount;
    KeepDigitsAppend("R$ ", amount);
    KeepDigitsOfNoDigits("R$ ");
    assert KeepDigits(r) == KeepDigits(amount);
    assert amount[..|amount| - 3] == r[3..|r| - 3];
    assert amount[|amount| - 2..] == r[|r| - 2..];
    Unsigned2Unique(amount, Abs(value));
  }

  /** The sign is discarded: a debit and a credit of the same size look alike. */
  lemma {:induction false} FormatCurrencyIgnoresSign(value: int)
    ensures FormatCurrency(value) == FormatCurrency(-value)
  {
  }

  /** The income colour for amounts `>= 0` (zero included), the expense colour otherwise. */
  function TransactionColor(amount: int): (r: string)
    ensures r == IncomeColor <==> amount >= 0
    ensures r == ExpenseColor <==> amount < 0
  {
    if amount >= 0 then IncomeColor else ExpenseColor
  }
}

=== FILE: numeric_text.dfy ===
/** Decimal digit strings: the `replace(/[^\d]/g, '')` clean-up every input field
    applies, `parseInt` on what is left, and `Number.prototype.toFixed(2)` applied
    to an amount held as whole centavos. */
module NumericText {
  import opened Wrappers

  predicate IsDigit(c: char) { '0' <= c <= '9' }

  predicate AllDigits(s: string) { forall i | 0 <= i < |s| :: IsDigit(s[i]) }

  /** `s.replace(/[^\d]/g, '')` (equivalently `/[^0-9]/g`): the digits of `s`, in order. */
  function KeepDigits(s: string): (r: string)
    ensures AllDigits(r)
    ensures |r| <= |s|
  {
    if s == [] then []
    else (if IsDigit(s[0]) then [s[0]] else []) + KeepDigits(s[1..])
  }

  /** Cleaning distributes over concatenation. */
  lemma {:induction false} KeepDigitsAppend(a: string, b: string)
    ensures KeepDigits(a + b) == KeepDigits(a) + KeepDigits(b)
  {
    if a == [] {
      assert a + b == b;
    } else {
      assert (a + b)[0] == a[0];
      assert (a + b)[1..] == a[1..] + b;
      KeepDigitsAppend(a[1..], b);
    }
  }

  /** Cleaning leaves a digit string as it is, so it is idempotent. */
  lemma {:induction false} KeepDigitsOfDigits(s: string)
    requires AllDigits(s)
    ensures KeepDigits(s) == s
  {
    if s != [] {
      assert IsDigit(s[0]);
      KeepDigitsOfDigits(s[1..]);
      assert s == [s[0]] + s[1..];
    }
  }

  /** Text without digits cleans to the empty string. */
  lemma {:induction false} KeepDigitsOfNoDigits(s: string)
    requires forall i | 0 <= i < |s| :: !IsDigit(s[i])
    ensures KeepDigits(s) == []
  {
    if s != [] {
      assert !IsDigit(s[0]);
      KeepDigitsOfNoDigits(s[1..]);
    }
  }

  function DigitValue(c: char): nat
    requires IsDigit(c)
  {
    (c as int - '0' as int) as nat
  }

  function DigitChar(d: nat): (c: char)
    requires d < 10
    ensures IsDigit(c) && DigitValue(c) == d
  {
    ('0' as int + d) as char
  }

  /** The value of a digit string read in base ten; leading zeros do not count. */
  function ValueOf(s: string): nat
    requires AllDigits(s)
  {
    if s == [] then 0 else ValueOf(s[..|s| - 1]) * 10 + DigitValue(s[|s| - 1])
  }

  function Pow10(k: nat): (r: nat)
    ensures r >= 1
  {
    if k == 0 then 1 else 10 * Pow10(k - 1)
  }

  /** `parseInt` applied to a string of digits only: `None` is the `NaN` it gives for "". */
  function ParseDigits(s: string): (r: Option<nat>)
    requires AllDigits(s)
    ensures r.None? <==> s == []
    ensures r.Some? ==> r.value < Pow10(|s|)
  {
    ValueBelowPow10(s);
    if s == [] then None else Some(ValueOf(s))
  }

  lemma {:induction false} ValueBelowPow10(s: string)
    requires AllDigits(s)
    ensures ValueOf(s) < Pow10(|s|)
  {
    if s != [] {
      ValueBelowPow10(s[..|s| - 1]);
    }
  }

  /** Reading a concatenation: the left part is shifted by the length of the right part. */
  lemma {:induction false} ValueOfAppend(a: string, b: string)
    requires AllDigits(a) && AllDigits(b)
    ensures AllDigits(a + b)
    ensures ValueOf(a + b) == ValueOf(a) * Pow10(|b|) + ValueOf(b)
  {
    if b == [] {
      assert a + b == a;
    } else {
      var ab := a + b;
      var b' := b[..|b| - 1];
      assert ab[..|ab| - 1] == a + b';
      assert ab[|ab| - 1] == b[|b| - 1];
      ValueOfAppend(a, b');
      ShiftDigit(ValueOf(a), Pow10(|b'|), ValueOf(b'), DigitValue(b[|b| - 1]));
    }
  }

  lemma {:induction false} ShiftDigit(x: int, p: int, y: int, d: int)
    ensures (x * p + y) * 10 + d == x * (10 * p) + (y * 10 + d)
  {
  }

  /** The shortest base-ten rendering of `n` (what `String(n)` gives for a whole number). */
  function NatToDigits(n: nat): (r: string)
    ensures AllDigits(r) && |r| >= 1
    ensures ValueOf(r) == n
    ensures r[0] == '0' ==> n == 0 && |r| == 1
    decreases n
  {
    if n < 10 then [DigitChar(n)]
    else
      var init := NatToDigits(n / 10);
      var r := init + [DigitChar(n % 10)];
      assert r[..|r| - 1] == init;
      r
  }

  /** Two digits for a centavo count below 100, with a leading zero when needed. */
  function Pad2(n: nat): (r: string)
    requires n < 100
    ensures AllDigits(r) && |r| == 2 && ValueOf(r) == n
  {
    var r := [DigitChar(n / 10), DigitChar(n % 10)];
    assert r[..1] == [r[0]];
    assert r[..1][..0] == [];
    assert ValueOf(r[..1]) == n / 10;
    r
  }

  function Abs(x: int): nat { if x < 0 then -x else x }

  predicate IsDecimalChar(c: char) { IsDigit(c) || c == '.' }

  /** `(n / 100).toFixed(2)` for a non-negative amount of `n` centavos: the whole
      reais, a point and exactly two decimals. */
  function Unsigned2(n: nat): (r: string)
    ensures |r| >= 4 && r[|r| - 3] == '.' && AllDigits(r[|r| - 2..])
    ensures AllDigits(r[..|r| - 3])
    ensures r[0] == '0' ==> |r| == 4
    ensures IsDigit(r[0])
    ensures forall i | 0 <= i < |r| :: IsDecimalChar(r[i])
    ensures ValueOf(KeepDigits(r)) == n
    ensures |KeepDigits(r)| == |r| - 1
  {
    var whole := NatToDigits(n / 100);
    var cents := Pad2(n % 100);
    PointedValue(whole, cents);
    assert ValueOf(whole) * 100 + ValueOf(cents) == n;
    PointedShape(whole, cents);
    whole + "." + cents
  }

  /** A whole part, a point and two decimals, read back by position. */
  lemma {:induction false} PointedShape(whole: string, cents: string)
    requires AllDigits(whole) && |whole| >= 1 && AllDigits(cents) && |cents| == 2
    ensures var r := whole + "." + cents;
      && |r| >= 4 && r[|r| - 3] == '.' && r[..|r| - 3] == whole && r[|r| - 2..] == cents
      && r[0] == whole[0] && |r| == |whole| + 3
      && (forall i | 0 <= i < |r| :: IsDecimalChar(r[i]))
      && |KeepDigits(r)| == |r| - 1
  {
    var r := whole + "." + cents;
    assert r[..|r| - 3] == whole;
    assert r[|r| - 2..] == cents;
    assert forall i | 0 <= i < |whole| :: r[i] == whole[i];
    assert forall i | |whole| < i < |r| :: r[i] == cents[i - |whole| - 1];
    PointedValue(whole, cents);
  }

  /** `(c / 100).toFixed(2)` for an amount of `c` centavos: a minus sign exactly when
      the amount is negative, then its magnitude as `Unsigned2` renders it. */
  function Fixed2(c: int): (r: string)
    ensures |r| >= 4 && r[|r| - 3] == '.' && AllDigits(r[|r| - 2..])
    ensures r[0] == '-' <==> c < 0
    ensures ValueOf(KeepDigits(r)) == Abs(c)
    ensures c >= 0 ==> r == Unsigned2(c)
    ensures c < 0 ==> r == "-" + Unsigned2(-c)
  {
    var u := Unsigned2(Abs(c));
    if c < 0 then
      MinusSigned(u);
      "-" + u
    else u
  }

  /** A leading minus sign adds no digit and keeps the point and the decimals in place. */
  lemma {:induction false} MinusSigned(u: string)
    requires |u| >= 4 && u[|u| - 3] == '.' && AllDigits(u[|u| - 2..])
    ensures var r := "-" + u;
      && |r| >= 4 && r[|r| - 3] == '.' && r[|r| - 2..] == u[|u| - 2..] && r[0] == '-'
      && KeepDigits(r) == KeepDigits(u)
  {
    KeepDigitsAppend("-", u);
    KeepDigitsOfNoDigits("-");
    assert ("-" + u)[|"-" + u| - 2..] == u[|u| - 2..];
  }

  /** The digits of a rendered amount are its whole part followed by its decimals. */
  lemma {:induction false} Fixed2Digits(sign: string, whole: string, cents: string)
    requires sign == "" || sign == "-"
    requires AllDigits(whole) && AllDigits(cents)
    ensures KeepDigits(sign + whole + "." + cents) == whole + cents
  {
    var tail := "." + cents;
    var rest := whole + tail;
    assert sign + whole + "." + cents == sign + rest;
    KeepDigitsOfNoDigits(sign);
    KeepDigitsOfNoDigits(".");
    KeepDigitsOfDigits(whole);
    KeepDigitsOfDigits(cents);
    KeepDigitsAppend(".", cents);
    assert KeepDigits(tail) == cents;
    KeepDigitsAppend(whole, tail);
    assert KeepDigits(rest) == whole + cents;
    KeepDigitsAppend(sign, rest);
  }

  /** A digit string without a leading zero (other than "0" itself) is the shortest
      rendering of its value: such strings are one-to-one with the naturals. */
  lemma {:induction false} CanonicalDigitsUnique(w: string)
    requires AllDigits(w) && |w| >= 1
    requires w[0] == '0' ==> |w| == 1
    ensures w == NatToDigits(ValueOf(w))
    decreases |w|
  {
    var init := w[..|w| - 1];
    var last := w[|w| - 1];
    assert init[..0] == [];
    if |w| == 1 {
      assert ValueOf(w) == DigitValue(last);
      assert DigitChar(DigitValue(last)) == last;
    } else {
      assert init[0] == w[0];
      CanonicalDigitsUnique(init);
      if ValueOf(init) < 10 {
        assert init == [DigitChar(ValueOf(init))];
      }
      var v := ValueOf(w);
      assert v == ValueOf(init) * 10 + DigitValue(last);
      assert v / 10 == ValueOf(init) && v % 10 == DigitValue(last);
      assert DigitChar(DigitValue(last)) == last;
      assert w == init + [last];
    }
  }

  /** Two digits read as a value below 100 are that value's `Pad2` rendering. */
  lemma {:induction false} TwoDigitsUnique(c: string)
    requires AllDigits(c) && |c| == 2
    ensures ValueOf(c) < 100 && c == Pad2(ValueOf(c))
  {
    assert c[..1] == [c[0]] && c[..1][..0] == [];
    assert ValueOf(c[..1]) == DigitValue(c[0]);
    var v := ValueOf(c);
    assert v == DigitValue(c[0]) * 10 + DigitValue(c[1]);
    assert v / 10 == DigitValue(c[0]) && v % 10 == DigitValue(c[1]);
    assert DigitChar(DigitValue(c[0])) == c[0];
    assert DigitChar(DigitValue(c[1])) == c[1];
  }

  /** The digits of "whole.cc" read as whole * 100 + cc. */
  lemma {:induction false} PointedValue(whole: string, cents: string)
    requires AllDigits(whole) && AllDigits(cents) && |cents| == 2
    ensures KeepDigits(whole + "." + cents) == whole + cents
    ensures ValueOf(KeepDigits(whole + "." + cents)) == ValueOf(whole) * 100 + ValueOf(cents)
  {
    Fixed2Digits("", whole, cents);
    assert "" + whole + "." + cents == whole + "." + cents;
    ValueOfAppend(whole, cents);
    assert Pow10(2) == 100;
  }

  /** `toFixed(2)`'s rendering is the only text of its shape with its value: a canonical
      whole part, a point and two decimals whose digits read as the amount determine it. */
  lemma {:induction false} Unsigned2Unique(r: string, n: nat)
    requires |r| >= 4 && r[|r| - 3] == '.'
    requires AllDigits(r[..|r| - 3]) && AllDigits(r[|r| - 2..])
    requires r[0] == '0' ==> |r| == 4
    requires ValueOf(KeepDigits(r)) == n
    ensures r == Unsigned2(n)
  {
    var whole := r[..|r| - 3];
    var cents := r[|r| - 2..];
    assert r == whole + "." + cents;
    PointedValue(whole, cents);
    TwoDigitsUnique(cents);
    var w, c := ValueOf(whole), ValueOf(cents);
    assert n == w * 100 + c && c < 100;
    assert n / 100 == w && n % 100 == c;
    assert whole[0] == r[0];
    CanonicalDigitsUnique(whole);
    Fixed2Digits("", NatToDigits(n / 100), Pad2(n % 100));
  }
}

=== FILE: palette.dfy ===
/** The four status colours the goal and budget screens pick from (`COLORS.success`,
    `COLORS.info`, `COLORS.warning`, `COLORS.error`), named rather than spelled out. */
module Palette {

  datatype Tone = Success | Info | Warning | Error

  /** How good a tone reads, from `Error` (0) to `Success` (3). */
  function Rank(t: Tone): nat {
    match t
    case Error => 0
    case Warning => 1
    case Info => 2
    case Success => 3
  }
}

=== FILE: profile.dfy ===
/** The profile screen's state: the user record, the edit dialog and its two text
    buffers, and the two settings switches. */
module Profile {
  import opened Wrappers

  /** The profile record; money in centavos, the join date as a day number. */
  datatype UserData = UserData(
    name: string,
    email: string,
    photo: Option<string>,
    joinDate: int,
    totalTransactions: nat,
    totalSavings: int,
    monthlyAverage: int,
    goalsCompleted: nat,
    currentGoals: nat,
    notifications: bool,
    darkMode: bool,
    currency: string,
    language: string)

  datatype Screen = Screen(
    user: UserData,
    editMode: bool,
    editName: string,
    editEmail: string,
    showEditDialog: bool)

  /** The screen as it opens: the buffers start as copies of the record's name and email. */
  function Open(user: UserData): (s: Screen)
    ensures s.user == user && s.editName == user.name && s.editEmail == user.email
    ensures !s.editMode && !s.showEditDialog
  {
    Screen(user, false, user.name, user.email, false)
  }

  /** `handleSaveProfile`: the buffers become the name and email, the dialog closes and
      edit mode ends; nothing else in the record changes. */
  function SaveProfile(s: Screen): (r: Screen)
    ensures r.user.name == s.editName && r.user.email == s.editEmail
    ensures r.user.(name := s.user.name, email := s.user.email) == s.user
    ensures !r.showEditDialog && !r.editMode
    ensures r.editName == s.editName && r.editEmail == s.editEmail
  {
    s.(user := s.user.(name := s.editName, email := s.editEmail), showEditDialog := false, editMode := false)
  }

  /** `handleToggleNotifications`. */
  function ToggleNotifications(s: Screen): (r: Screen)
    ensures r.user.notifications != s.user.notifications
    ensures r.user.(notifications := s.user.notifications) == s.user
    ensures r.(user := s.user) == s
  {
    s.(user := s.user.(notifications := !s.user.notifications))
  }

  /** `handleToggleDarkMode`. */
  function ToggleDarkMode(s: Screen): (r: Screen)
    ensures r.user.darkMode != s.user.darkMode
    ensures r.user.(darkMode := s.user.darkMode) == s.user
    ensures r.(user := s.user) == s
  {
    s.(user := s.user.(darkMode := !s.user.darkMode))
  }

  /** Each switch undoes itself, and the two switches commute. */
  lemma {:induction false} TogglesAreInvolutions(s: Screen)
    ensures ToggleNotifications(ToggleNotifications(s)) == s
    ensures ToggleDarkMode(ToggleDarkMode(s)) == s
    ensures ToggleNotifications(ToggleDarkMode(s)) == ToggleDarkMode(ToggleNotifications(s))
  {
  }

  /** Saving twice is saving once, and saving right after opening changes nothing. */
  lemma {:induction false} SaveIdempotent(s: Screen)
    ensures SaveProfile(SaveProfile(s)) == SaveProfile(s)
    ensures SaveProfile(Open(s.user)) == Open(s.user)
  {
  }

  /** The dialog's own events: opening it, typing into a buffer, dismissing it. */
  function ShowDialog(s: Screen): Screen { s.(showEditDialog := true) }
  function TypeName(s: Screen, text: string): Screen { s.(editName := text) }
  function TypeEmail(s: Screen, text: string): Screen { s.(editEmail := text) }
  function Dismiss(s: Screen): Screen { s.(showEditDialog := false) }

  /** Dismissing keeps the record but not a clean buffer: text typed before a dismiss is
      still in the dialog when it opens again, and a later save stores it. */
  lemma {:induction false} DismissKeepsDraft(user: UserData, draft: string)
    ensures var s := ShowDialog(Dismiss(TypeName(ShowDialog(Open(user)), draft)));
      && s.user == user && s.editName == draft
      && SaveProfile(s).user.name == draft
  {
  }
}

=== FILE: reports.dfy ===
/** The reports screen's computed figures: the expense total over the categories, the
    savings progress shown as a whole percent, and the trend and insight styling. */
module Reports {
  import opened JsNumber
  import opened NumericText

  /** A category's spending for the period, in centavos. */
  datatype CategoryExpense = CategoryExpense(category: string, amount: int, color: string, trend: string)

  /** `expenses.reduce((acc, curr) => acc + curr.amount, 0)`. */
  function TotalExpenses(expenses: seq<CategoryExpense>): int
    decreases |expenses|
  {
    if expenses == [] then 0
    else TotalExpenses(expenses[..|expenses| - 1]) + expenses[|expenses| - 1].amount
  }

  /** The total over two lists joined is the sum of their totals. */
  lemma {:induction false} TotalExpensesAppend(a: seq<CategoryExpense>, b: seq<CategoryExpense>)
    ensures TotalExpenses(a + b) == TotalExpenses(a) + TotalExpenses(b)
    decreases |b|
  {
    if b == [] {
      assert a + b == a;
    } else {
      assert (a + b)[..|a + b| - 1] == a + b[..|b| - 1];
      TotalExpensesAppend(a, b[..|b| - 1]);
    }
  }

  /** The total does not depend on the order of the categories: moving the first one to
      the end leaves it unchanged. */
  lemma {:induction false} TotalExpensesRotate(expenses: seq<CategoryExpense>)
    requires expenses != []
    ensures TotalExpenses(expenses[1..] + [expenses[0]]) == TotalExpenses(expenses)
  {
    TotalExpensesAppend(expenses[1..], [expenses[0]]);
    TotalExpensesAppend([expenses[0]], expenses[1..]);
    assert [expenses[0]] + expenses[1..] == expenses;
    assert TotalExpenses([expenses[0]]) == expenses[0].amount by {
      assert [expenses[0]][..0] == [];
    }
  }

  /** The total does not depend on the order of the categories at all: any two lists
      holding the same entries, in whatever order, have the same total. */
  lemma {:induction false} TotalExpensesPermutation(a: seq<CategoryExpense>, b: seq<CategoryExpense>)
    requires multiset(a) == multiset(b)
    ensures TotalExpenses(a) == TotalExpenses(b)
    decreases |a|
  {
    if a == [] {
      assert |b| == |multiset(b)| == 0;
    } else {
      var init, x := a[..|a| - 1], a[|a| - 1];
      assert a == init + [x];
      assert multiset(a) == multiset(init) + multiset{x};
      assert x in multiset(b);
      var i :| 0 <= i < |b| && b[i] == x;
      var rest := b[..i] + b[i + 1..];
      TotalExpensesRemove(b, i);
      assert multiset(init) == multiset(rest);
      TotalExpensesPermutation(init, rest);
    }
  }

  /** Taking one entry out of a list: the rest holds every other entry, and the total
      drops by its amount. */
  lemma {:induction false} TotalExpensesRemove(b: seq<CategoryExpense>, i: nat)
    requires i < |b|
    ensures multiset(b[..i] + b[i + 1..]) == multiset(b) - multiset{b[i]}
    ensures TotalExpenses(b) == TotalExpenses(b[..i] + b[i + 1..]) + b[i].amount
  {
    var x := b[i];
    assert b == b[..i] + [x] + b[i + 1..];
    assert multiset(b) == multiset(b[..i]) + multiset{x} + multiset(b[i + 1..]);
    TotalExpensesAppend(b[..i] + [x], b[i + 1..]);
    TotalExpensesAppend(b[..i], [x]);
    TotalExpensesAppend(b[..i], b[i + 1..]);
    assert TotalExpenses([x]) == x.amount by {
      assert [x][..0] == [];
    }
  }

  /** Non-negative amounts give a total at least as large as each of them. */
  lemma {:induction false} TotalExpensesBounds(expenses: seq<CategoryExpense>)
    requires forall i | 0 <= i < |expenses| :: expenses[i].amount >= 0
    ensures TotalExpenses(expenses) >= 0
    ensures forall i | 0 <= i < |expenses| :: expenses[i].amount <= TotalExpenses(expenses)
    decreases |expenses|
  {
    if expenses != [] {
      var init := expenses[..|expenses| - 1];
      TotalExpensesBounds(init);
      assert forall i | 0 <= i < |init| :: init[i] == expenses[i];
    }
  }

  /** `Number.prototype.toFixed(0)` for a finite quotient: the nearest integer with
      halves away from zero, "-" in front of negative values (so -0.4 shows "-0"); the
      infinities and NaN as "Infinity", "-Infinity" and "NaN". */
  function ToFixed0(q: Quotient): (r: string)
    requires q.WellFormed()
    ensures r != []
    ensures r[0] == '-' <==> (q.Fraction? && q.num < 0) || q == NegInf
    ensures q.Fraction? ==>
      var digits := if q.num < 0 then r[1..] else r;
      && AllDigits(digits) && |digits| >= 1
      && (digits[0] == '0' ==> |digits| == 1)
      && 2 * Abs(q.num) - q.den < 2 * ValueOf(digits) * q.den <= 2 * Abs(q.num) + q.den
    ensures q == PosInf ==> r == "Infinity"
    ensures q == NegInf ==> r == "-Infinity"
    ensures q == NaN ==> r == "NaN"
  {
    match q
    case Fraction(n, d) =>
      var digits := NatToDigits(RoundHalfUp(Abs(n), d));
      if n < 0 then
        assert ("-" + digits)[1..] == digits;
        "-" + digits
      else digits
    case PosInf => "Infinity"
    case NegInf => "-Infinity"
    case NaN => "NaN"
  }

  /** The integer nearest to `n / d`, halves up. */
  function RoundHalfUp(n: nat, d: nat): (k: nat)
    requires d > 0
    ensures 2 * n - d < 2 * k * d <= 2 * n + d
  {
    var k := (2 * n + d) / (2 * d);
    assert 2 * d * k <= 2 * n + d < 2 * d * k + 2 * d;
    k
  }

  /** `savingsProgress = currentSavings / savingsGoal`, shown as
      `(savingsProgress * 100).toFixed(0) + '%'`. */
  function SavingsPercentText(currentSavings: int, savingsGoal: int): (text: string)
    ensures |text| >= 2 && text[|text| - 1] == '%'
    ensures savingsGoal != 0 ==>
      && (text[0] == '-' <==> currentSavings < 0 < savingsGoal || savingsGoal < 0 < currentSavings)
      && var digits := text[if text[0] == '-' then 1 else 0..|text| - 1];
      && AllDigits(digits) && |digits| >= 1
      && (digits[0] == '0' ==> |digits| == 1)
      && 200 * Abs(currentSavings) - Abs(savingsGoal) < 2 * ValueOf(digits) * Abs(savingsGoal)
      && 2 * ValueOf(digits) * Abs(savingsGoal) <= 200 * Abs(currentSavings) + Abs(savingsGoal)
    ensures savingsGoal == 0 ==>
      text == if currentSavings > 0 then "Infinity%" else if currentSavings < 0 then "-Infinity%" else "NaN%"
  {
    var progress := Divide(currentSavings, savingsGoal);
    var q := Times(progress, 100);
    PercentQuotient(currentSavings, savingsGoal);
    var f := ToFixed0(q);
    PercentSuffix(f);
    f + "%"
  }

  /** `(currentSavings / savingsGoal) * 100` as a quotient: the denominator is the goal's
      size, the numerator a hundred times the savings, negative when the signs differ. */
  lemma {:induction false} PercentQuotient(currentSavings: int, savingsGoal: int)
    ensures var q := Times(Divide(currentSavings, savingsGoal), 100);
      && (savingsGoal != 0 ==>
        && q.Fraction? && q.den == Abs(savingsGoal) && Abs(q.num) == 100 * Abs(currentSavings)
        && (q.num < 0 <==> currentSavings < 0 < savingsGoal || savingsGoal < 0 < currentSavings))
      && (savingsGoal == 0 ==>
        q == if currentSavings > 0 then PosInf else if currentSavings < 0 then NegInf else NaN)
  {
  }

  /** Appending the percent sign keeps the text in front of it readable by position. */
  lemma {:induction false} PercentSuffix(f: string)
    requires f != []
    ensures (f + "%")[..|f|] == f && (f + "%")[0] == f[0] && (f + "%")[1..|f|] == f[1..]
  {
  }

  /** The screen's sample: R$ 800,00 saved towards R$ 1.000,00 shows "80%". */
  lemma {:induction false} SampleSavingsText()
    ensures SavingsPercentText(80000, 100000) == "80%"
  {
    var q := Times(Divide(80000, 100000), 100);
    assert q == Fraction(8000000, 100000);
    assert NatToDigits(80) == "80" by {
      assert NatToDigits(8) == "8";
    }
  }

  /** The screen's sample categories, in centavos. */
  const SampleExpenses: seq<CategoryExpense> := [
    CategoryExpense("Alimentação", 85000, "#FF6B6B", "up"),
    CategoryExpense("Transporte", 45000, "#4ECDC4", "down"),
    CategoryExpense("Moradia", 120000, "#45B7D1", "stable"),
    CategoryExpense("Lazer", 30000, "#96CEB4", "up"),
    CategoryExpense("Outros", 20000, "#FFEEAD", "down")
  ]

  /** The sample categories add up to the summary's R$ 3.000,00 of expenses. */
  lemma {:induction false} SampleExpensesMatchSummary()
    ensures TotalExpenses(SampleExpenses) == 300000
  {
    var e := SampleExpenses;
    assert TotalExpenses(e[..1]) == 85000 by { assert e[..1][..0] == []; }
    assert TotalExpenses(e[..2]) == 130000 by { assert e[..2][..1] == e[..1]; }
    assert TotalExpenses(e[..3]) == 250000 by { assert e[..3][..2] == e[..2]; }
    assert TotalExpenses(e[..4]) == 280000 by { assert e[..4][..3] == e[..3]; }
    assert e[..5] == e;
  }

  datatype TrendIcon = TrendIcon(name: string, color: string)

  /** `getTrendIcon`: up and down get their arrows and colours; any other value, 'stable'
      included, gets the neutral icon. */
  function GetTrendIcon(trend: string): (icon: TrendIcon)
    ensures icon.name == "trending-up" <==> trend == "up"
    ensures icon.name == "trending-down" <==> trend == "down"
    ensures icon.name == "trending-neutral" <==> trend != "up" && trend != "down"
    ensures icon.color == (if trend == "up" then "#FF6B6B" else if trend == "down" then "#4ECDC4" else "#7F7F7F")
  {
    match trend
    case "up" => TrendIcon("trending-up", "#FF6B6B")
    case "down" => TrendIcon("trending-down", "#4ECDC4")
    case _ => TrendIcon("trending-neutral", "#7F7F7F")
  }

  /** The neutral grey every unknown value falls back to. */
  const NeutralGrey := "#7F7F7F"

  /** `getInsightColor`: three fixed colours and the neutral grey for any other value. */
  function InsightColor(kind: string): (color: string)
    ensures color == NeutralGrey <==> kind !in {"warning", "success", "info"}
    ensures kind == "warning" ==> color == "#FFA726"
    ensures kind == "success" ==> color == "#66BB6A"
    ensures kind == "info" ==> color == "#42A5F5"
  {
    match kind
    case "warning" => "#FFA726"
    case "success" => "#66BB6A"
    case "info" => "#42A5F5"
    case _ => NeutralGrey
  }
}

=== FILE: seqs.dfy ===
/** Order-preserving filtering of sequences, the model of `Array.prototype.filter`. */
module Seqs {

  /** The elements of `s` that satisfy `p`, in their original order. */
  function Filter<T>(p: T -> bool, s: seq<T>): (r: seq<T>)
    ensures |r| <= |s|
  {
    if s == [] then []
    else
      assert s == [s[0]] + s[1..];
      (if p(s[0]) then [s[0]] else []) + Filter(p, s[1..])
  }

  /** An element is kept exactly when it occurs in `s` and passes `p`. */
  lemma {:induction false} FilterMembership<T>(p: T -> bool, s: seq<T>, x: T)
    ensures x in Filter(p, s) <==> x in s && p(x)
  {
    if s != [] {
      FilterMembership(p, s[1..], x);
      assert x in s <==> x == s[0] || x in s[1..];
    }
  }

  /** A filter every element passes returns its input unchanged. */
  lemma {:induction false} FilterAllPass<T>(p: T -> bool, s: seq<T>)
    requires forall x | x in s :: p(x)
    ensures Filter(p, s) == s
  {
    if s != [] {
      assert s[0] in s;
      assert forall x | x in s[1..] :: x in s;
      FilterAllPass(p, s[1..]);
      assert s == [s[0]] + s[1..];
    }
  }

  /** A filter no element passes returns the empty sequence. */
  lemma {:induction false} FilterNonePass<T>(p: T -> bool, s: seq<T>)
    requires forall x | x in s :: !p(x)
    ensures Filter(p, s) == []
  {
    if s != [] {
      assert s[0] in s;
      assert forall x | x in s[1..] :: x in s;
      FilterNonePass(p, s[1..]);
    }
  }

  /** Filtering distributes over concatenation, so it never reorders what it keeps. */
  lemma {:induction false} FilterAppend<T>(p: T -> bool, a: seq<T>, b: seq<T>)
    ensures Filter(p, a + b) == Filter(p, a) + Filter(p, b)
  {
    if a == [] {
      assert a + b == b;
    } else {
      var ab := a + b;
      assert ab[0] == a[0];
      assert ab[1..] == a[1..] + b;
      var head := if p(a[0]) then [a[0]] else [];
      calc {
        Filter(p, ab);
        head + Filter(p, ab[1..]);
        { FilterAppend(p, a[1..], b); }
        head + (Filter(p, a[1..]) + Filter(p, b));
        (head + Filter(p, a[1..])) + Filter(p, b);
      }
    }
  }

  /** Filtering keeps every passing element as often as it occurs and drops the rest:
      nothing is added or duplicated. */
  lemma {:induction false} FilterMultiplicity<T>(p: T -> bool, s: seq<T>, x: T)
    ensures multiset(Filter(p, s))[x] == if p(x) then multiset(s)[x] else 0
  {
    if s != [] {
      FilterMultiplicity(p, s[1..], x);
      assert s == [s[0]] + s[1..];
      assert multiset(s) == multiset([s[0]]) + multiset(s[1..]);
    }
  }

  /** Two successive filters keep exactly what their conjunction `pq` keeps. */
  lemma {:induction false} FilterFilter<T>(p: T -> bool, q: T -> bool, pq: T -> bool, s: seq<T>)
    requires forall x | x in s :: pq(x) == (q(x) && p(x))
    ensures Filter(p, Filter(q, s)) == Filter(pq, s)
  {
    if s != [] {
      assert s[0] in s;
      assert forall x | x in s[1..] :: x in s;
      FilterFilter(p, q, pq, s[1..]);
      if q(s[0]) {
        var fq := Filter(q, s);
        assert fq == [s[0]] + Filter(q, s[1..]);
        assert fq[0] == s[0];
        assert fq[1..] == Filter(q, s[1..]);
        assert Filter(p, fq) == (if p(s[0]) then [s[0]] else []) + Filter(p, fq[1..]);
      } else {
        assert Filter(q, s) == Filter(q, s[1..]);
      }
      assert Filter(pq, s) == (if pq(s[0]) then [s[0]] else []) + Filter(pq, s[1..]);
    }
  }
}

=== FILE: transaction_form.dfy ===
/** The new-transaction form: the amount field's centavo formatting, the due-day
    guard, the submitted payload and the category picker. */
module TransactionForm {
  import opened Wrappers
  import opened NumericText
  import opened TransactionQuery

  /** `formatAmount`: the typed digits are read as centavos and stored as
      `(n / 100).toFixed(2)`; text without a digit stores "NaN" (`parseInt('')`). */
  function FormatAmount(text: string): (amount: string)
    ensures amount == "NaN" <==> KeepDigits(text) == []
    ensures KeepDigits(text) != [] ==>
      && |amount| >= 4 && amount[|amount| - 3] == '.'
      && (forall i | 0 <= i < |amount| :: IsDecimalChar(amount[i]))
      && ValueOf(KeepDigits(amount)) == ValueOf(KeepDigits(text))
    ensures KeepDigits(text) != [] ==>
      && AllDigits(amount[..|amount| - 3]) && AllDigits(amount[|amount| - 2..])
      && (amount[0] == '0' ==> |amount| == 4)
      && amount == Unsigned2(ValueOf(KeepDigits(text)))
  {
    match ParseDigits(KeepDigits(text))
    case None => "NaN"
    case Some(n) =>
      var r := Fixed2(n);
      assert IsDigit(r[0]);
      r
  }

  /** Formatting its own output changes nothing: the stored amount is a fixed point. */
  lemma {:induction false} FormatAmountIdempotent(text: string)
    ensures FormatAmount(FormatAmount(text)) == FormatAmount(text)
  {
    var amount := FormatAmount(text);
    if KeepDigits(text) == [] {
      KeepDigitsOfNoDigits("NaN");
    } else {
      var n := ValueOf(KeepDigits(text));
      assert amount == Unsigned2(n);
    }
  }

  /** Typing one more digit after the stored amount shifts it one place: the new
      amount is ten times the old one plus the digit, in centavos. */
  lemma {:induction false} FormatAmountTypeDigit(text: string, c: char)
    requires KeepDigits(text) != [] && IsDigit(c)
    ensures var next := FormatAmount(FormatAmount(text) + [c]);
      ValueOf(KeepDigits(next)) == ValueOf(KeepDigits(text)) * 10 + DigitValue(c)
  {
    var amount := FormatAmount(text);
    KeepDigitsAppend(amount, [c]);
    assert KeepDigits([c]) == [c];
    var d := KeepDigits(amount);
    assert (d + [c])[..|d|] == d;
  }

  /** The `dueDay` change handler: the digits of the new text are stored only when
      `parseInt` of them is at most 31; otherwise the field keeps its value. */
  function DueDayChange(current: string, text: string): (next: string)
    ensures var digits := KeepDigits(text);
      && (digits != [] && ValueOf(digits) <= 31 ==> next == digits)
      && (digits == [] || ValueOf(digits) > 31 ==> next == current)
  {
    var digits := KeepDigits(text);
    match ParseDigits(digits)
    case Some(n) => if n <= 31 then digits else current
    case None => current
  }

  /** A value the due-day field can hold: empty (its initial value) or digits worth at most 31. */
  predicate DueDayReachable(s: string) {
    s == [] || (AllDigits(s) && ValueOf(s) <= 31)
  }

  /** Every edit keeps the field reachable, and once a value is stored no edit can
      empty the field again: deleting every digit is rejected like an overflow. */
  lemma {:induction false} DueDayChangeInvariant(current: string, text: string)
    requires DueDayReachable(current)
    ensures DueDayReachable(DueDayChange(current, text))
    ensures current != [] ==> DueDayChange(current, text) != []
  {
  }

  /** "0" and the leading-zero "07" are stored exactly as typed; "32" is rejected. */
  lemma {:induction false} DueDayExamples()
    ensures DueDayChange("", "0") == "0"
    ensures DueDayChange("", "07") == "07"
    ensures DueDayChange("3", "32") == "3"
    ensures DueDayChange("5", "") == "5"
  {
    assert KeepDigits("0") == "0";
    assert KeepDigits("07") == "07";
    assert KeepDigits("32") == "32";
    assert ValueOf("07") == 7 by { assert "07"[..1] == "0"; }
    assert ValueOf("32") == 32 by { assert "32"[..1] == "3"; }
  }

  datatype Frequency = Daily | Weekly | Monthly | Yearly

  /** The form's state (the receipt image is its URI, when one was taken). */
  datatype Form = Form(
    kind: Kind,
    amount: string,
    description: string,
    selectedCategory: string,
    receiptImage: Option<string>,
    isFixed: bool,
    frequency: Frequency,
    dueDay: string)

  /** The recurring part of a submission: the frequency and `parseInt(dueDay)`. */
  datatype Recurrence = Recurrence(frequency: Frequency, dueDay: Option<nat>)

  datatype Payload = Payload(
    kind: Kind,
    amount: string,
    description: string,
    selectedCategory: string,
    receiptImage: Option<string>,
    isFixed: bool,
    recurrence: Option<Recurrence>)

  /** The submitted object: the form's fields, plus frequency and due day exactly
      when the transaction is fixed. */
  function SubmitPayload(f: Form): (p: Payload)
    requires DueDayReachable(f.dueDay)
    ensures p.recurrence.Some? <==> f.isFixed
    ensures p.recurrence.Some? ==> p.recurrence.value.frequency == f.frequency
    ensures p.recurrence.Some? ==>
      (p.recurrence.value.dueDay.None? <==> f.dueDay == [])
      && (p.recurrence.value.dueDay.Some? ==> p.recurrence.value.dueDay.value <= 31)
    ensures p.recurrence.Some? && f.dueDay != [] ==> p.recurrence.value.dueDay == Some(ValueOf(f.dueDay))
    ensures (p.kind, p.amount, p.description, p.selectedCategory, p.receiptImage, p.isFixed)
      == (f.kind, f.amount, f.description, f.selectedCategory, f.receiptImage, f.isFixed)
  {
    Payload(
      f.kind, f.amount, f.description, f.selectedCategory, f.receiptImage, f.isFixed,
      if f.isFixed then Some(Recurrence(f.frequency, ParseDigits(f.dueDay))) else None)
  }

  datatype Category = Category(id: string, name: string, icon: string)

  /** The category picker's entries. */
  const Categories: seq<Category> := [
    Category("1", "Alimentação", "food"),
    Category("2", "Transporte", "car"),
    Category("3", "Lazer", "movie"),
    Category("4", "Saúde", "medical-bag"),
    Category("5", "Educação", "school"),
    Category("6", "Moradia", "home"),
    Category("7", "Outros", "dots-horizontal")
  ]

  /** `categories.find(cat => cat.id === id)`: the first entry with that id, if any. */
  function FindCategory(cats: seq<Category>, id: string): (r: Option<Category>)
    ensures r.None? <==> forall i | 0 <= i < |cats| :: cats[i].id != id
    ensures r.Some? ==> exists i | 0 <= i < |cats| ::
      cats[i] == r.value && r.value.id == id && forall j | 0 <= j < i :: cats[j].id != id
  {
    if cats == [] then None
    else if cats[0].id == id then Some(cats[0])
    else
      var r := FindCategory(cats[1..], id);
      assert forall i | 1 <= i < |cats| :: cats[i] == cats[1..][i - 1];
      if r.Some? then
        var k :| 0 <= k < |cats[1..]| && cats[1..][k] == r.value && r.value.id == id
          && forall j | 0 <= j < k :: cats[1..][j].id != id;
        assert cats[k + 1] == r.value;
        r
      else r
  }

  /** No two entries share an id. */
  predicate UniqueIds(cats: seq<Category>) {
    forall i, j | 0 <= i < j < |cats| :: cats[i].id != cats[j].id
  }

  /** With unique ids, looking up an entry's id finds that entry. */
  lemma {:induction false} FindCategoryEntry(cats: seq<Category>, i: nat)
    requires UniqueIds(cats) && i < |cats|
    ensures FindCategory(cats, cats[i].id) == Some(cats[i])
  {
    var r := FindCategory(cats, cats[i].id);
    var k :| 0 <= k < |cats| && cats[k] == r.value && r.value.id == cats[i].id
      && forall j | 0 <= j < k :: cats[j].id != cats[i].id;
    if k < i {
      assert cats[k].id == cats[i].id;
    }
  }

  lemma {:induction false} CategoriesUnique()
    ensures UniqueIds(Categories)
  {
    forall i, j | 0 <= i < j < |Categories| ensures Categories[i].id != Categories[j].id {
      assert Categories[i].id == [('1' as int + i) as char];
      assert Categories[j].id == [('1' as int + j) as char];
      assert Categories[i].id[0] != Categories[j].id[0];
    }
  }

  /** Looking up a picker entry's id finds that entry. */
  lemma {:induction false} FindInCategories(selectedCategory: string)
    ensures forall i | 0 <= i < |Categories| && Categories[i].id == selectedCategory ::
      FindCategory(Categories, selectedCategory) == Some(Categories[i])
  {
    forall i | 0 <= i < |Categories| && Categories[i].id == selectedCategory
      ensures FindCategory(Categories, selectedCategory) == Some(Categories[i])
    {
      CategoriesUnique();
      FindCategoryEntry(Categories, i);
    }
  }

  /** No picker entry is named like the button's placeholder. */
  lemma {:induction false} NoEntryNamedPlaceholder()
    ensures forall i | 0 <= i < |Categories| :: Categories[i].name != "Selecione uma categoria"
  {
  }

  /** The category button: the selected entry's icon and name, or the placeholder
      icon and text when no entry has the selected id. */
  function CategoryButton(selectedCategory: string): (iconAndLabel: (string, string))
    ensures iconAndLabel.1 == "Selecione uma categoria"
      <==> forall i | 0 <= i < |Categories| :: Categories[i].id != selectedCategory
    ensures forall i | 0 <= i < |Categories| :: Categories[i].id == selectedCategory ==>
      iconAndLabel == (Categories[i].icon, Categories[i].name)
    ensures (forall i | 0 <= i < |Categories| :: Categories[i].id != selectedCategory) ==>
      iconAndLabel == ("folder-outline", "Selecione uma categoria")
  {
    FindInCategories(selectedCategory);
    NoEntryNamedPlaceholder();
    match FindCategory(Categories, selectedCategory)
    case Some(c) => (c.icon, c.name)
    case None => ("folder-outline", "Selecione uma categoria")
  }
}

=== FILE: transaction_scenarios.dfy ===
/** Worked examples of the transactions list over three entries of its fixture
    (ids 1, 2 and 12), on 20 March 2024. */
module TransactionScenarios {
  import Seqs
  import opened Calendar
  import opened TransactionQuery

  const Market := Transaction(1, "Supermercado Extra", -45675, "Alimentação", 738959, "food", Expense)
  const Salary := Transaction(2, "Salário", 500000, "Receita Fixa", 738954, "cash-plus", Income)
  const Restaurant := Transaction(12, "Restaurante", -8990, "Alimentação", 738935, "food", Expense)
  const Today := Date(2024, 3, 20)

  /** The fixture's day numbers are those of its calendar dates. */
  lemma {:induction false} FixtureDates()
    ensures Market.date == DayNumber(Date(2024, 3, 15))
    ensures Salary.date == DayNumber(Date(2024, 3, 10))
    ensures Restaurant.date == DayNumber(Date(2024, 2, 20))
    ensures DayNumber(Today) == 738964
    ensures WindowStart("month", Today) == DayNumber(Date(2024, 3, 1)) == 738945
    ensures WindowStart("week", Today) == DayNumber(Date(2024, 3, 13))
  {
  }

  /** The month view lists the two March entries, newest first. */
  lemma {:induction false} MonthScenario()
    ensures FilterTransactions([Market, Salary, Restaurant], "all", "month", Today) == [Market, Salary]
  {
    FixtureDates();
    var all := [Market, Salary, Restaurant];
    var p := WindowTest(738945, 738964);
    assert TypeFilter("all", all) == all;
    assert Seqs.Filter(p, [Restaurant]) == [];
    assert Seqs.Filter(p, [Salary, Restaurant]) == [Salary];
    assert Seqs.Filter(p, all) == [Market, Salary];
    assert WindowFilter(738945, 738964, all) == [Market, Salary];
    assert [Market][..0] == [];
    assert SortByDateDesc([Market]) == Insert(Market, []) == [Market];
    assert [Market, Salary][..1] == [Market];
    assert Insert(Salary, []) == [Salary];
    assert Insert(Salary, [Market]) == [Market] + Insert(Salary, []);
    assert SortByDateDesc([Market, Salary]) == Insert(Salary, [Market]);
  }

  /** Its summary: income 5000.00, expenses 456.75 and balance 4543.25. */
  lemma {:induction false} MonthScenarioTotals()
    ensures CalculateTotal(IncomeKind, [Market, Salary, Restaurant], "all", "month", Today) == 500000
    ensures CalculateTotal(ExpenseKind, [Market, Salary, Restaurant], "all", "month", Today) == 45675
    ensures CalculateTotal(BalanceKind, [Market, Salary, Restaurant], "all", "month", Today) == 454325
  {
    MonthScenario();
    var listed := [Market, Salary];
    assert listed[..1] == [Market];
    assert [Market][..0] == [];
    assert Sum(IncomePart, [Market]) == 0;
    assert Sum(IncomePart, listed) == 500000;
    assert Sum(ExpensePart, [Market]) == 45675;
    assert Sum(ExpensePart, listed) == 45675;
    assert Sum(BalancePart, [Market]) == -45675;
    assert Sum(BalancePart, listed) == 454325;
  }

  /** The week view (13 to 20 March) lists only the market expense: income 0,
      expenses 456.75, balance -456.75. */
  lemma {:induction false} WeekScenario()
    ensures FilterTransactions([Market, Salary, Restaurant], "all", "week", Today) == [Market]
    ensures CalculateTotal(BalanceKind, [Market, Salary, Restaurant], "all", "week", Today) == -45675
  {
    FixtureDates();
    var all := [Market, Salary, Restaurant];
    var p := WindowTest(738957, 738964);
    assert TypeFilter("all", all) == all;
    assert Seqs.Filter(p, [Restaurant]) == [];
    assert Seqs.Filter(p, [Salary, Restaurant]) == [];
    assert Seqs.Filter(p, all) == [Market];
    assert SortByDateDesc([Market]) == [Market];
    assert [Market][..0] == [];
    assert Sum(BalancePart, [Market]) == -45675;
  }
}

=== FILE: transactions.dfy ===
/** The transactions list: the type filter, the period window ending at the end of
    today, the most-recent-first sort, and the income / expense / balance totals
    computed over what the list shows. */
module TransactionQuery {
  import Seqs
  import opened Calendar
  import opened NumericText
  import opened MoneyDisplay
  import opened Wrappers

  datatype Kind = Income | Expense

  /** A listed transaction: `amount` in signed centavos, `date` a day number. */
  datatype Transaction = Transaction(
    id: int,
    description: string,
    amount: int,
    category: string,
    date: int,
    icon: string,
    kind: Kind)

  /** The type filter: "income" and "expense" restrict the kind, any other value keeps all. */
  predicate TypeMatches(filter: string, t: Transaction) {
    (filter == "income" ==> t.kind == Income) && (filter == "expense" ==> t.kind == Expense)
  }

  function TypeTest(filter: string): Transaction -> bool {
    (t: Transaction) => TypeMatches(filter, t)
  }

  function TypeFilter(filter: string, ts: seq<Transaction>): (r: seq<Transaction>)
    ensures forall t | t in r :: t in ts && TypeMatches(filter, t)
    ensures forall t | t in ts && TypeMatches(filter, t) :: t in r
    ensures filter != "income" && filter != "expense" ==> r == ts
  {
    var p := TypeTest(filter);
    assert forall t :: t in Seqs.Filter(p, ts) <==> t in ts && p(t) by {
      forall t ensures t in Seqs.Filter(p, ts) <==> t in ts && p(t) {
        Seqs.FilterMembership(p, ts, t);
      }
    }
    assert filter != "income" && filter != "expense" ==> Seqs.Filter(p, ts) == ts by {
      if filter != "income" && filter != "expense" {
        Seqs.FilterAllPass(p, ts);
      }
    }
    Seqs.Filter(p, ts)
  }

  /** First day of the window for the selected period: a week back from today, the
      first of this month, 1 January of this year, or today itself for any other value. */
  function WindowStart(period: string, today: Date): (start: int)
    requires Valid(today)
    ensures start <= DayNumber(today)
    ensures period == "week" ==> start == DayNumber(today) - 7
    ensures period !in {"week", "month", "year"} ==> start == DayNumber(today)
  {
    if period == "week" then DayNumber(today) - 7
    else if period == "month" then
      var first := Date(today.year, today.month, 1);
      DayNumberOrder(first, today);
      DayNumber(first)
    else if period == "year" then
      var first := Date(today.year, 1, 1);
      DayNumberOrder(first, today);
      DayNumber(first)
    else DayNumber(today)
  }

  /** Whether a transaction passes both filters of the list. */
  predicate Selected(filter: string, start: int, end: int, t: Transaction) {
    TypeMatches(filter, t) && start <= t.date <= end
  }

  function SelectedTest(filter: string, start: int, end: int): Transaction -> bool {
    (t: Transaction) => Selected(filter, start, end, t)
  }

  /** The month window holds exactly the days of the current month up to today. */
  lemma {:induction false} MonthWindow(today: Date, d: Date)
    requires Valid(today) && Valid(d)
    ensures WindowStart("month", today) <= DayNumber(d) <= DayNumber(today)
      <==> d.year == today.year && d.month == today.month && d.day <= today.day
  {
    var first := Date(today.year, today.month, 1);
    DayNumberOrder(first, d);
    DayNumberOrder(d, today);
  }

  /** The year window holds exactly the days of the current year up to today. */
  lemma {:induction false} YearWindow(today: Date, d: Date)
    requires Valid(today) && Valid(d)
    ensures WindowStart("year", today) <= DayNumber(d) <= DayNumber(today)
      <==> d.year == today.year && !Before(today, d)
  {
    var first := Date(today.year, 1, 1);
    DayNumberOrder(first, d);
    DayNumberOrder(d, today);
  }

  /** The windows nest: the year window contains the month window, which contains today. */
  lemma {:induction false} WindowsNest(today: Date)
    requires Valid(today)
    ensures WindowStart("year", today) <= WindowStart("month", today) <= DayNumber(today)
  {
    var jan1 := Date(today.year, 1, 1);
    var first := Date(today.year, today.month, 1);
    DayNumberOrder(jan1, first);
    DayNumberOrder(first, today);
  }

  /** Most recent first: each transaction is dated no later than the one before it. */
  predicate SortedByDateDesc(s: seq<Transaction>) {
    forall i | 0 < i < |s| :: s[i - 1].date >= s[i].date
  }

  /** Sortedness of neighbours extends to every pair. */
  lemma {:induction false} SortedAllPairs(s: seq<Transaction>)
    requires SortedByDateDesc(s)
    ensures forall i, j | 0 <= i < j < |s| :: s[i].date >= s[j].date
  {
    if |s| > 1 {
      var tl := s[1..];
      SortedAllPairs(tl);
      forall i, j | 0 <= i < j < |s| ensures s[i].date >= s[j].date {
        if i == 0 {
          assert s[1] == tl[0] && s[j] == tl[j - 1];
        } else {
          assert s[i] == tl[i - 1] && s[j] == tl[j - 1];
        }
      }
    }
  }

  /** Places `x` after every element dated on or after it, so equal dates keep input order. */
  function Insert(x: Transaction, s: seq<Transaction>): (r: seq<Transaction>)
    requires SortedByDateDesc(s)
    ensures |r| == |s| + 1
    ensures r[0] == x || (s != [] && r[0] == s[0])
    ensures SortedByDateDesc(r)
  {
    if s == [] then [x]
    else if s[0].date >= x.date then
      var rest := Insert(x, s[1..]);
      var r := [s[0]] + rest;
      assert forall i | 1 <= i < |rest| :: rest[i - 1].date >= rest[i].date;
      assert forall i | 1 < i < |r| :: r[i] == rest[i - 1];
      r
    else
      [x] + s
  }

  lemma {:induction false} InsertMultiset(x: Transaction, s: seq<Transaction>)
    requires SortedByDateDesc(s)
    ensures multiset(Insert(x, s)) == multiset(s) + multiset{x}
  {
    if s != [] && s[0].date >= x.date {
      InsertMultiset(x, s[1..]);
      assert s == [s[0]] + s[1..];
    }
  }

  /** `sort((a, b) => b.date - a.date)` as a stable insertion sort: most recent first,
      a permutation of the input. */
  function SortByDateDesc(s: seq<Transaction>): (r: seq<Transaction>)
    ensures SortedByDateDesc(r)
    ensures |r| == |s|
  {
    if s == [] then []
    else Insert(s[|s| - 1], SortByDateDesc(s[..|s| - 1]))
  }

  /** The sort is a permutation: it neither drops nor duplicates a transaction. */
  lemma {:induction false} SortPermutes(s: seq<Transaction>)
    ensures multiset(SortByDateDesc(s)) == multiset(s)
  {
    if s != [] {
      var init := s[..|s| - 1];
      var x := s[|s| - 1];
      var sorted := SortByDateDesc(init);
      SortPermutes(init);
      InsertMultiset(x, sorted);
      assert s == init + [x];
      assert multiset(s) == multiset(init) + multiset{x};
    }
  }

  /** The transactions of `s` dated `d`, in their order in `s`. */
  function OnDay(s: seq<Transaction>, d: int): seq<Transaction> {
    Seqs.Filter((t: Transaction) => t.date == d, s)
  }

  lemma {:induction false} InsertOnDay(x: Transaction, s: seq<Transaction>, d: int)
    requires SortedByDateDesc(s)
    ensures OnDay(Insert(x, s), d) == OnDay(s, d) + (if x.date == d then [x] else [])
  {
    if s == [] {
    } else if s[0].date >= x.date {
      InsertOnDay(x, s[1..], d);
      var rest := Insert(x, s[1..]);
      assert ([s[0]] + rest)[0] == s[0];
      assert ([s[0]] + rest)[1..] == rest;
    } else {
      if x.date == d {
        SortedAllPairs(s);
        forall t | t in s ensures t.date != d {
          var i :| 0 <= i < |s| && s[i] == t;
          assert i == 0 || s[0].date >= s[i].date;
        }
        Seqs.FilterNonePass((t: Transaction) => t.date == d, s);
      }
      assert ([x] + s)[0] == x;
      assert ([x] + s)[1..] == s;
    }
  }

  /** The sort is stable: on every day it lists that day's transactions in input order. */
  lemma {:induction false} SortStable(s: seq<Transaction>, d: int)
    ensures OnDay(SortByDateDesc(s), d) == OnDay(s, d)
  {
    if s != [] {
      var init := s[..|s| - 1];
      var x := s[|s| - 1];
      var sorted := SortByDateDesc(init);
      assert SortByDateDesc(s) == Insert(x, sorted);
      SortStable(init, d);
      InsertOnDay(x, sorted, d);
      assert s == init + [x];
      Seqs.FilterAppend((t: Transaction) => t.date == d, init, [x]);
      assert OnDay([x], d) == if x.date == d then [x] else [];
    }
  }

  /** The window filter: transactions dated between `start` and `end`, both inclusive. */
  function WindowTest(start: int, end: int): Transaction -> bool {
    (t: Transaction) => start <= t.date <= end
  }

  function WindowFilter(start: int, end: int, ts: seq<Transaction>): (r: seq<Transaction>)
    ensures forall t | t in r :: t in ts && start <= t.date <= end
    ensures forall t | t in ts && start <= t.date <= end :: t in r
  {
    var p := WindowTest(start, end);
    var r := Seqs.Filter(p, ts);
    assert forall t :: t in r <==> t in ts && p(t) by {
      forall t ensures t in r <==> t in ts && p(t) {
        Seqs.FilterMembership(p, ts, t);
      }
    }
    r
  }

  /** `filterTransactions`: the transactions of `all` that pass the type filter and lie
      between the window start and today (both inclusive), most recent first. */
  function FilterTransactions(all: seq<Transaction>, filter: string, period: string, today: Date)
    : (r: seq<Transaction>)
    requires Valid(today)
    ensures SortedByDateDesc(r)
    ensures forall t | t in r ::
      t in all && Selected(filter, WindowStart(period, today), DayNumber(today), t)
    ensures forall t | t in all && Selected(filter, WindowStart(period, today), DayNumber(today), t) ::
      t in r
  {
    var windowed := WindowFilter(WindowStart(period, today), DayNumber(today), TypeFilter(filter, all));
    var r := SortByDateDesc(windowed);
    SortPermutes(windowed);
    assert forall t :: t in r <==> t in windowed by {
      forall t ensures t in r <==> t in windowed {
        assert t in r <==> t in multiset(r);
        assert t in windowed <==> t in multiset(windowed);
      }
    }
    r
  }

  /** The list is the sorted selection: filtering by type and then by date keeps
      exactly what passes both tests, in input order, and the sort only reorders. */
  lemma {:induction false} FilterTransactionsIsSortedSelection(all: seq<Transaction>, filter: string, period: string, today: Date)
    requires Valid(today)
    ensures FilterTransactions(all, filter, period, today)
      == SortByDateDesc(Seqs.Filter(SelectedTest(filter, WindowStart(period, today), DayNumber(today)), all))
  {
    var start := WindowStart(period, today);
    var end := DayNumber(today);
    var pt := TypeTest(filter);
    var pw := WindowTest(start, end);
    var sel := SelectedTest(filter, start, end);
    calc {
      FilterTransactions(all, filter, period, today);
      SortByDateDesc(WindowFilter(start, end, TypeFilter(filter, all)));
      SortByDateDesc(Seqs.Filter(pw, Seqs.Filter(pt, all)));
      { Seqs.FilterFilter(pw, pt, sel, all); }
      SortByDateDesc(Seqs.Filter(sel, all));
    }
  }

  /** Nothing is added or duplicated: each transaction appears as often as in the input
      when it passes both filters, and not at all otherwise. */
  lemma {:induction false} FilterTransactionsMultiplicity(all: seq<Transaction>, filter: string, period: string, today: Date, t: Transaction)
    requires Valid(today)
    ensures multiset(FilterTransactions(all, filter, period, today))[t]
      == if Selected(filter, WindowStart(period, today), DayNumber(today), t) then multiset(all)[t] else 0
  {
    var start := WindowStart(period, today);
    var end := DayNumber(today);
    var p := SelectedTest(filter, start, end);
    FilterTransactionsIsSortedSelection(all, filter, period, today);
    SortPermutes(Seqs.Filter(p, all));
    Seqs.FilterMultiplicity(p, all, t);
  }

  /** A transaction's share of each total: its amount for income, its absolute
      amount for expenses, and the signed amount the balance fold adds. */
  function IncomePart(t: Transaction): int {
    if t.kind == Income then t.amount else 0
  }

  function ExpensePart(t: Transaction): int {
    if t.kind == Expense then Abs(t.amount) else 0
  }

  function BalancePart(t: Transaction): int {
    if t.kind == Income then t.amount else -(Abs(t.amount) as int)
  }

  /** `reduce((acc, curr) => acc + f(curr), 0)`: a left fold from the first element. */
  function Sum(f: Transaction -> int, ts: seq<Transaction>): int {
    if ts == [] then 0 else Sum(f, ts[..|ts| - 1]) + f(ts[|ts| - 1])
  }

  lemma {:induction false} SumAppend(f: Transaction -> int, a: seq<Transaction>, b: seq<Transaction>)
    ensures Sum(f, a + b) == Sum(f, a) + Sum(f, b)
  {
    if b != [] {
      assert (a + b)[..|a + b| - 1] == a + b[..|b| - 1];
      SumAppend(f, a, b[..|b| - 1]);
    } else {
      assert a + b == a;
    }
  }

  lemma {:induction false} SumNonNegative(f: Transaction -> int, ts: seq<Transaction>)
    requires forall i | 0 <= i < |ts| :: f(ts[i]) >= 0
    ensures Sum(f, ts) >= 0
  {
    if ts != [] {
      SumNonNegative(f, ts[..|ts| - 1]);
    }
  }

  lemma {:induction false} SumZero(f: Transaction -> int, ts: seq<Transaction>)
    ensures (forall i | 0 <= i < |ts| :: f(ts[i]) == 0) ==> Sum(f, ts) == 0
  {
    if ts != [] {
      SumZero(f, ts[..|ts| - 1]);
      assert forall i | 0 <= i < |ts| - 1 :: ts[..|ts| - 1][i] == ts[i];
    }
  }

  /** Income total: the amounts of the income transactions; zero when there are none. */
  function IncomeTotal(ts: seq<Transaction>): (r: int)
    ensures (forall i | 0 <= i < |ts| :: ts[i].kind == Expense) ==> r == 0
  {
    SumZero(IncomePart, ts);
    Sum(IncomePart, ts)
  }

  /** Expense total: the absolute amounts of the expense transactions, never negative. */
  function ExpenseTotal(ts: seq<Transaction>): (r: int)
    ensures r >= 0
    ensures (forall i | 0 <= i < |ts| :: ts[i].kind == Income) ==> r == 0
  {
    SumNonNegative(ExpensePart, ts);
    SumZero(ExpensePart, ts);
    Sum(ExpensePart, ts)
  }

  /** The balance fold adds income amounts and subtracts absolute expense amounts. */
  function BalanceTotal(ts: seq<Transaction>): int {
    Sum(BalancePart, ts)
  }

  /** The balance fold equals income total minus expense total. */
  lemma {:induction false} BalanceIsIncomeMinusExpense(ts: seq<Transaction>)
    ensures BalanceTotal(ts) == IncomeTotal(ts) - ExpenseTotal(ts)
  {
    if ts != [] {
      BalanceIsIncomeMinusExpense(ts[..|ts| - 1]);
    }
  }

  lemma {:induction false} SumInsert(f: Transaction -> int, x: Transaction, s: seq<Transaction>)
    requires SortedByDateDesc(s)
    ensures Sum(f, Insert(x, s)) == Sum(f, s) + f(x)
  {
    if s == [] {
      assert [x][..0] == [];
    } else if s[0].date >= x.date {
      SumInsert(f, x, s[1..]);
      SumAppend(f, [s[0]], Insert(x, s[1..]));
      SumAppend(f, [s[0]], s[1..]);
      assert [s[0]] + s[1..] == s;
      assert [s[0]][..0] == [];
    } else {
      SumAppend(f, [x], s);
      assert [x][..0] == [];
    }
  }

  /** Sorting does not change any total: they depend only on which transactions are listed. */
  lemma {:induction false} SumSort(f: Transaction -> int, s: seq<Transaction>)
    ensures Sum(f, SortByDateDesc(s)) == Sum(f, s)
  {
    if s != [] {
      SumSort(f, s[..|s| - 1]);
      SumInsert(f, s[|s| - 1], SortByDateDesc(s[..|s| - 1]));
    }
  }

  datatype TotalKind = IncomeKind | ExpenseKind | BalanceKind

  /** `calculateTotal(type)`: the requested total over the listed transactions. */
  function CalculateTotal(kind: TotalKind, all: seq<Transaction>, filter: string, period: string, today: Date): int
    requires Valid(today)
  {
    var listed := FilterTransactions(all, filter, period, today);
    match kind
    case IncomeKind => IncomeTotal(listed)
    case ExpenseKind => ExpenseTotal(listed)
    case BalanceKind => BalanceTotal(listed)
  }

  /** The three totals the summary card shows agree, and the expense total is never negative. */
  lemma {:induction false} CalculateTotalConsistent(all: seq<Transaction>, filter: string, period: string, today: Date)
    requires Valid(today)
    ensures CalculateTotal(BalanceKind, all, filter, period, today)
      == CalculateTotal(IncomeKind, all, filter, period, today) - CalculateTotal(ExpenseKind, all, filter, period, today)
    ensures CalculateTotal(ExpenseKind, all, filter, period, today) >= 0
  {
    BalanceIsIncomeMinusExpense(FilterTransactions(all, filter, period, today));
  }

  /** Totals follow the type filter: under "income" the expense total is zero, under
      "expense" the income total is zero. */
  lemma {:induction false} TotalsFollowTypeFilter(all: seq<Transaction>, filter: string, period: string, today: Date)
    requires Valid(today)
    ensures filter == "income" ==> CalculateTotal(ExpenseKind, all, filter, period, today) == 0
    ensures filter == "expense" ==> CalculateTotal(IncomeKind, all, filter, period, today) == 0
  {
    var listed := FilterTransactions(all, filter, period, today);
    assert forall i | 0 <= i < |listed| :: listed[i] in listed;
  }

  /** The totals over the list equal the totals over the unsorted selection. */
  lemma {:induction false} TotalsIgnoreOrder(all: seq<Transaction>, filter: string, period: string, today: Date)
    requires Valid(today)
    ensures var selection := Seqs.Filter(SelectedTest(filter, WindowStart(period, today), DayNumber(today)), all);
      && CalculateTotal(IncomeKind, all, filter, period, today) == IncomeTotal(selection)
      && CalculateTotal(ExpenseKind, all, filter, period, today) == ExpenseTotal(selection)
  {
    var selection := Seqs.Filter(SelectedTest(filter, WindowStart(period, today), DayNumber(today)), all);
    FilterTransactionsIsSortedSelection(all, filter, period, today);
    SumSort(IncomePart, selection);
    SumSort(ExpensePart, selection);
  }

  /** The three folds in a single pass over the list. */
  method ComputeTotals(ts: seq<Transaction>) returns (income: int, expense: int, balance: int)
    ensures income == IncomeTotal(ts)
    ensures expense == ExpenseTotal(ts) && expense >= 0
    ensures balance == income - expense
  {
    income, expense, balance := 0, 0, 0;
    var i := 0;
    while i < |ts|
      invariant 0 <= i <= |ts|
      invariant income == Sum(IncomePart, ts[..i])
      invariant expense == Sum(ExpensePart, ts[..i]) && expense >= 0
      invariant balance == income - expense
    {
      assert ts[..i + 1][..i] == ts[..i];
      var t := ts[i];
      if t.kind == Income {
        income := income + t.amount;
        balance := balance + t.amount;
      } else {
        expense := expense + Abs(t.amount);
        balance := balance - Abs(t.amount);
      }
      i := i + 1;
    }
    assert ts[..i] == ts;
  }

  const EmptyMessage := "Nenhuma transação encontrada"

  /** What the screen shows: the three summary figures, the colour of the balance,
      and either the list or the empty-state message. */
  datatype Screen = Screen(
    incomeText: string,
    expenseText: string,
    balanceText: string,
    balanceColor: string,
    items: seq<Transaction>,
    emptyMessage: Option<string>)

  /** The screen for the listed transactions `items` (the result of `FilterTransactions`). */
  function Render(items: seq<Transaction>): (v: Screen)
    ensures v.items == items
    ensures v.emptyMessage.Some? <==> items == []
    ensures v.balanceColor == IncomeColor <==> IncomeTotal(items) >= ExpenseTotal(items)
    ensures ValueOf(KeepDigits(v.balanceText)) == Abs(IncomeTotal(items) - ExpenseTotal(items))
    ensures ValueOf(KeepDigits(v.expenseText)) == ExpenseTotal(items)
    ensures ValueOf(KeepDigits(v.incomeText)) == Abs(IncomeTotal(items))
  {
    BalanceIsIncomeMinusExpense(items);
    var balance := BalanceTotal(items);
    Screen(
      FormatCurrency(IncomeTotal(items)),
      FormatCurrency(ExpenseTotal(items)),
      FormatCurrency(Abs(balance)),
      if balance >= 0 then IncomeColor else ExpenseColor,
      items,
      if |items| == 0 then Some(EmptyMessage) else None)
  }

  /** The three figures are exactly the formatted totals: the income, the expenses and
      the difference of the two, whose sign only picks the colour. */
  lemma {:induction false} RenderTexts(items: seq<Transaction>)
    ensures Render(items).incomeText == FormatCurrency(IncomeTotal(items))
    ensures Render(items).expenseText == FormatCurrency(ExpenseTotal(items))
    ensures Render(items).balanceText == FormatCurrency(IncomeTotal(items) - ExpenseTotal(items))
  {
    BalanceIsIncomeMinusExpense(items);
    BalanceText(IncomeTotal(items), ExpenseTotal(items), BalanceTotal(items));
  }

  /** The balance is shown by its size, so its text is the formatted difference. */
  lemma {:induction false} BalanceText(income: int, expense: int, balance: int)
    requires balance == income - expense
    ensures FormatCurrency(Abs(balance)) == FormatCurrency(income - expense)
  {
    if balance < 0 {
      FormatCurrencyIgnoresSign(balance);
      assert Abs(balance) == -balance;
    }
  }

  /** An empty list shows the empty-state message and three zero figures in the income colour. */
  lemma {:induction false} EmptyListScreen()
    ensures Render([]).emptyMessage == Some(EmptyMessage)
    ensures Render([]).incomeText == Render([]).expenseText == Render([]).balanceText == "R$ 0.00"
    ensures Render([]).balanceColor == IncomeColor
  {
    assert NatToDigits(0) == "0";
    assert Pad2(0) == "00";
    assert Unsigned2(0) == "0.00";
    assert FormatCurrency(0) == "R$ 0.00";
  }
}

=== FILE: wrappers.dfy ===
/** Optional values: `None` stands for JavaScript's `undefined`, `null` or `NaN`,
    whichever the modelled code produces. */
module Wrappers {

  datatype Option<+T> = None | Some(value: T)
}
